=== FILE: README.md ===
# octodns-vultr, modelled in Dafny

A model of the Vultr DNS provider for octoDNS (`octodns_vultr/__init__.py`):
the `VultrClient` requests and their error mapping, the provider's two
per-zone caches, the read path (`zone_records` → `populate` →
`_data_for_<type>`), the write path (`_params_for_<type>` →
`zone_record_create`), and `_apply` with its Create, Update and Delete
handlers.

The HTTP session is a parameter. A `Client.Remote` gives the status the API
answers each request with and the records a successful listing returns.
Every operation that talks to the API returns the requests it sent, in order,
together with the provider state after it and its result or error. Python
exceptions are `Result`/`Option` values: the client's `Unauthorized`,
`Forbidden` and `NotFound`, an `HttpError(status)` for `raise_for_status`, and
`IndexError` and `ValueError` from the decoders.

Modules, in dependency order:

- `Wrappers`: `Option` and `Result`.
- `Text`: the string operations the provider uses, written out with Python's meaning:
  - `str.replace` for `;` ↔ `\;`;
  - `_append_dot`;
  - `split(' ', 2)`;
  - `strip('"')`;
  - `int()`, and `f'{n}'`.
- `Records`: the provider's record dictionaries, octoDNS records, the supported types, and the errors.
- `Client`: `_do`, `zone_records_get`, `zone_record_create` and the request trace.
- `Cache`: `zone_records` and `zone_metadata`.
- `Decode`: `_record_ttl` and `_data_for_*`.
- `Encode`: `_params_for_*`.
- `Populate`: grouping and `populate`.
- `Apply`: `_apply_*` and `_apply`.
- `RoundTrip`: writing a record and then reading it back.

Where the code and its documentation disagree, the model follows the code:

- The read path escapes `;` into `\;` and the write path unescapes it. This is
  not the other way round.
- `_apply` never creates a missing zone (see Findings).
- The record cache is dropped only when every change went through. It is not
  dropped in a `finally`.

## Model

| member | source | states |
|---|---|---|
| Text.Escape | octodns_vultr/__init__.py:148 | the read path's `replace(';', '\\;')` leaves every `;` escaped and changes nothing in a string without `;` |
| Text.UnescapeEscape | octodns_vultr/__init__.py:278-285 | the write path's `replace('\\;', ';')` undoes the read path's escaping on every string |
| Text.EscapeUnescape | octodns_vultr/__init__.py:147-153 | on every escaped value (the read path's output), escaping after unescaping gives the value back |
| Text.AppendDot | octodns_vultr/__init__.py:125-128 | `_append_dot` raises on the empty string; otherwise it returns a fully qualified name, which equals the input exactly when the input is already `@` or dot-terminated and is the input plus `.` otherwise |
| Text.AppendDotIdempotent | octodns_vultr/__init__.py:125-128 | `_append_dot` applied twice is `_append_dot` applied once |
| Text.Split3Spec | octodns_vultr/__init__.py:162-163 | `split(' ', 2)` has three parts exactly when the data holds at least two spaces; the first two parts hold no space and rejoin to the data |
| Text.Split3Of | octodns_vultr/__init__.py:213-214 | joining two space-free fields and a rest with spaces, then splitting with `split(' ', 2)`, gives the three back |
| Text.StripQuotesOfQuoted | octodns_vultr/__init__.py:166 | `strip('"')` removes exactly the quotes the CAA encoder adds, when the value neither starts nor ends with a quote |
| Text.ParseIntToString | octodns_vultr/__init__.py:292 | `int()` reads back every integer `f'{n}'` formats, negative ones included |
| Records.ParseType | octodns_vultr/__init__.py:114 | a type tag is recognised exactly when it is in `SUPPORTS`, and the recognised type spells back as the tag |
| Client.StatusError | octodns_vultr/__init__.py:51-61 | `_do` raises exactly for statuses 400-599: `NotFound` exactly for 404, `Unauthorized` for 401, `Forbidden` for 403, the HTTP error otherwise |
| Client.StatusExamples | octodns_vultr/__init__.py:51-61 | 401, 403 and 404 raise `Unauthorized`, `Forbidden` and `NotFound`, a 502 the HTTP error carrying 502, and a 200 nothing |
| Client.Run | octodns_vultr/__init__.py:343-352 | requests are sent in order; with no rejection all are sent, otherwise exactly the accepted prefix and the rejected request are sent, and its error is raised |
| Client.RunInOrder | octodns_vultr/__init__.py:343-352 | sending a sequence of requests sends a prefix of it; it fails exactly when the API rejects one of them, and then the last request sent is the only one rejected and its error is the one raised; otherwise every request is sent |
| Client.NormalizeApex | octodns_vultr/__init__.py:79-86 | `zone_records_get` renames each `@` record to `""` and changes nothing else, record by record |
| Client.ApexRoundTrip | octodns_vultr/__init__.py:84-91 | `name or '@'` on the way out and `@` → `""` on the way in are inverse on every name except the one each side reserves |
| Client.BuildPayload | octodns_vultr/__init__.py:88-102 | the body always has a non-empty name that reads back as the given one; a TTL is sent exactly when non-zero; a priority is sent exactly when given, non-zero, and the type is MX or SRV |
| Cache.ZoneRecords | octodns_vultr/__init__.py:228-237 | a cached zone costs no request and returns the cached records; otherwise one listing, and its status decides: accepted, the listing (apex renamed) is returned and cached; 404, `[]` is returned and nothing is cached; any other error is raised with the state unchanged; no other zone's entry changes |
| Cache.ZoneRecordsCached | octodns_vultr/__init__.py:228-237 | once a listing is cached, the next lookup of the zone sends no request and returns the same records, whatever the API would now answer |
| Cache.ZoneMetadata | octodns_vultr/__init__.py:130-141 | a cached zone costs no request; otherwise one `zone_get`, and its status decides: accepted, the zone is cached as present; 404, it is cached as absent (`zone_get` returns `None`); any other error is raised with the state unchanged and is never `NotFound` |
| Cache.ZoneMetadataCached | octodns_vultr/__init__.py:130-141 | once a lookup succeeded, the next lookup of the zone sends no request and returns the same answer, whatever the API would now answer |
| Decode.GatherSpec | octodns_vultr/__init__.py:158-172 | the loop over a group raises exactly when some record raises, and the error raised is one a record raised; otherwise it keeps as many values as records it did not skip, each one a record produced |
| Decode.GatherKept | octodns_vultr/__init__.py:158-172 | a successful per-record loop keeps exactly the values of the records that were neither skipped nor raised, in record order; a failing one raises the error of the first record that raises |
| Decode.RecordTtl | octodns_vultr/__init__.py:143-145 | a record's TTL is its own `ttl` when present and 300 when the key is missing |
| Decode.EscapedValuesSpec | octodns_vultr/__init__.py:147-156 | one value per record, in order, each escaped and unescaping to the record's data |
| Decode.CaaFromSpec | octodns_vultr/__init__.py:160-167 | a CAA record is dropped exactly when its data has fewer than two spaces, and raises `ValueError` exactly when it splits but its flags field is not an integer; a kept value's flags are the first field read as an integer, its tag the second field (space-free), its value the rest with quotes stripped |
| Decode.CaaFromFields | octodns_vultr/__init__.py:160-167 | a record whose data is `f`, a space-free tag and a rest, separated by spaces, reads as flags `f`, that tag, and the rest with its quotes stripped |
| Decode.SrvFromSpec | octodns_vultr/__init__.py:210-223 | an SRV record is dropped exactly when its data has fewer than two spaces; it raises exactly when it splits but its port is not an integer (`ValueError`), its target is empty (`IndexError`) or its weight is not an integer (`ValueError`), checked in that order; a kept value's weight and port are the first two fields read as integers, its target the rest dot-normalised, its priority the record's own |
| Decode.SrvFromFields | octodns_vultr/__init__.py:210-223 | a record whose data is a weight, a port and a non-empty target, separated by spaces, reads as that weight and port, the target dot-normalised, and the record's priority |
| Decode.DecodeCaaSpec | octodns_vultr/__init__.py:158-172 | `_data_for_CAA` raises exactly when some record's flags are unreadable, with the first such record's `ValueError`; otherwise it keeps the values of all but the malformed records, in record order, each with a space-free tag |
| Decode.DecodeMxSpec | octodns_vultr/__init__.py:182-196 | `_data_for_MX` raises `IndexError` exactly when some record's data is empty; otherwise one value per record, in order: the priority field as preference and the data, dot-normalised, as exchange |
| Decode.DecodeNsSpec | octodns_vultr/__init__.py:198-206 | `_data_for_NS` raises `IndexError` exactly when some record's data is empty; otherwise each record's data, dot-normalised, in order |
| Decode.DecodeSrvSpec | octodns_vultr/__init__.py:208-224 | `_data_for_SRV` raises exactly when some kept record raises, with the first such record's error (`ValueError` or `IndexError`); otherwise it keeps the values of all but the malformed records, in record order, each with a fully qualified target |
| Decode.ValuesForShape | octodns_vultr/__init__.py:147-226 | the decoded value has the group's type; A, AAAA and TXT never raise; the value count is the group size, less the malformed records for CAA and SRV; only `IndexError` or `ValueError` is raised |
| Decode.DataForSpec | octodns_vultr/__init__.py:143-145 | the record is named after its group, has the group's type, and takes the first record's TTL, which is 300 when the key is missing |
| Encode.CaaDataSplits | octodns_vultr/__init__.py:290-298 | the CAA encoder's `flags tag "value"` splits back into flags, tag and quoted value when the tag has no space |
| Encode.SrvDataSplits | octodns_vultr/__init__.py:322-336 | the SRV encoder's `weight port target` (target without its trailing dot) splits back into its three fields |
| Encode.ParamsFor | octodns_vultr/__init__.py:278-338 | one parameter set per value (one for CNAME), each with the record's name, type and TTL; the data is the value with `\;` unescaped for A, AAAA, NS and TXT, `flags tag "value"` for CAA, the target for CNAME, the exchange for MX and `weight port target` (trailing dot dropped) for SRV; the priority is the MX preference or the SRV priority, and absent for every other type |
| Text.StripTrailingDot | octodns_vultr/__init__.py:325-327 | a target ending in `.` loses exactly that dot; any other target is kept as is |
| Encode.Post | octodns_vultr/__init__.py:344-352 | a parameter set is posted with its type and data unchanged, a wire name that is never empty and reads back as the set's name (the apex `@` as empty), its TTL only when non-zero and its priority only when it has one that is non-zero and the type is MX or SRV |
| RoundTrip.RecordRoundTrip | octodns_vultr/__init__.py:147-338 | every record whose values survive packing is, after being written and listed again, decoded exactly as it was |
| RoundTrip.CreatedListed | octodns_vultr/__init__.py:340-352 | the bodies `_apply_Create` posts for a record, stored as sent and listed again, are the listing the round trip reads |
| RoundTrip.CreateRoundTrip | octodns_vultr/__init__.py:340-352 | every record whose values survive packing, sent by `_apply_Create` and listed again, is decoded by the read path exactly as it was |
| RoundTrip.DecodeCaaOf | octodns_vultr/__init__.py:158-172 | the CAA decoder reads back every list of CAA values the CAA encoder packed |
| RoundTrip.DecodeSrvOf | octodns_vultr/__init__.py:208-224 | the SRV decoder reads back every list of SRV values the SRV encoder packed, priorities from the records' field |
| RoundTrip.SrvTargetBack | octodns_vultr/__init__.py:326-327 | a target that loses its trailing dot on the way out gets it back from `_append_dot`, unless what remains is empty, ends in a dot, or is `@` |
| RoundTrip.SrvRootTargetUnreadable | octodns_vultr/__init__.py:216-220 | an SRV record written with the root target `.` cannot be read back: its empty target makes `_append_dot` raise |
| RoundTrip.ReencodeMultiple | octodns_vultr/__init__.py:278-285 | reading an A, AAAA or TXT group and writing it again posts the data it was read from |
| Populate.GroupingLaw | octodns_vultr/__init__.py:247-255 | each group is exactly the listed records of its name and type, in listing order; unsupported types form no group |
| Populate.MatchingComplete | octodns_vultr/__init__.py:362-366 | every listed record with the given name and type is among the matching records |
| Populate.MatchingAppend | octodns_vultr/__init__.py:362-366 | matching keeps listing order: the matches of a concatenated listing are the matches of its first part followed by those of its second |
| Populate.GroupsPartition | octodns_vultr/__init__.py:258-268 | the groups decoded are non-empty, have distinct (name, type) keys, and cover every listed record of a supported type |
| Populate.DecodeGroups | octodns_vultr/__init__.py:258-268 | groups are decoded in order; every record before the first failing group is added, and that group's error is raised |
| Populate.PopulateZone | octodns_vultr/__init__.py:239-276 | populate returns true exactly when the zone's records are cached and every group decodes; a listing error is raised with nothing added; after a listing, the records added are those of the groups decoded before the first failing one, whose error is raised; a false return adds nothing and leaves the state alone |
| Populate.PopulateFromCache | octodns_vultr/__init__.py:228-237 | after a populate that found the zone, the next populate sends no request and adds the same records |
| Populate.PopulateMissingZone | octodns_vultr/__init__.py:234-235 | a zone whose listing answers 404 populates nothing, returns false, and is not cached |
| Populate.PopulateListingError | octodns_vultr/__init__.py:228-237 | a listing the API rejects with anything but a 404 is raised by populate, which adds nothing and caches nothing |
| Populate.PopulateAddsGroups | octodns_vultr/__init__.py:258-268 | every added record is the decoding of the listed records with its name and type |
| Populate.PopulateAddsEveryGroup | octodns_vultr/__init__.py:247-268 | a populate that answers true adds one record per group, in decoding order, each the group's decoding with its name and type; every listed record of a supported type is covered by an added record of its name and type |
| Apply.CreateCalls | octodns_vultr/__init__.py:340-352 | `_apply_Create` posts one create per value, all to the zone's domain, with the record's type and name and the data its `_params_for_<type>` packs; a TTL exactly when non-zero; a priority only for MX and SRV |
| Apply.ApplyCreate | octodns_vultr/__init__.py:340-352 | the state does not change; the creates are sent in order, and the handler fails exactly when the API rejects one, with that create's error, every create before it accepted and none after it sent; otherwise all are sent; every request is a record request for the zone |
| Apply.DeleteCalls | octodns_vultr/__init__.py:359-367 | `_apply_Delete` deletes, in listing order, exactly the listed records with the existing record's name and type |
| Apply.DeleteCallsCover | octodns_vultr/__init__.py:359-367 | every listed record with the existing record's name and type gets a delete, and every delete is of such a record |
| Apply.ApplyDelete | octodns_vultr/__init__.py:359-367 | the records are looked up through the cache first, and a lookup error is raised before any delete; after the lookup, the deletes are sent in order, and the handler fails exactly when the API rejects one, with its error and nothing sent after it |
| Apply.ApplyUpdate | octodns_vultr/__init__.py:354-357 | an update runs the delete first; a failed delete is the update's result and no create is sent; otherwise the creates follow the deletes, sent in order, and the update fails exactly when the API rejects one of them, with its error |
| Apply.ApplyChange | octodns_vultr/__init__.py:386-387 | a change is handed to the handler of its class; whichever it is, zone metadata is untouched, only this zone's record cache can change (not at all when it is already cached) and every request concerns this zone's records |
| Apply.ApplyChanges | octodns_vultr/__init__.py:385-387 | an empty plan sends nothing and changes nothing; when the first change fails, its outcome is the loop's outcome and no later change runs; only this zone's record cache can change; every request concerns this zone's records |
| Apply.ApplyChangesAppend | octodns_vultr/__init__.py:385-387 | applying `a + b` is applying `a`, then, if nothing failed, `b` from the state `a` left |
| Apply.ApplyChangesOne | octodns_vultr/__init__.py:385-387 | a plan of one change is handled exactly as that change: same requests, state and error; with `ApplyChangesAppend` this fixes the loop's result for every plan |
| Apply.ApplyChangeAccepted | octodns_vultr/__init__.py:385-387 | with the zone's records cached and every request accepted, a change sends its creates, its deletes, or its deletes then its creates, and nothing else, and leaves the state alone |
| Apply.ApplyChangesAccepted | octodns_vultr/__init__.py:385-387 | with the zone's records cached and every request accepted, the loop over the changes sends each change's requests, in plan order, and nothing else |
| Apply.ApplyPlan | octodns_vultr/__init__.py:369-390 | `_apply` looks the zone up first and never creates it; a lookup error is raised with no other request sent; otherwise the requests after the lookup and the error are exactly those of the loop over the changes; on success the zone's cached records are dropped; the metadata cache is what the lookup left, and no other zone's cache of either kind changes |
| Apply.ApplyPlanAccepted | octodns_vultr/__init__.py:369-390 | with the zone's records cached, the lookup answered and every request accepted, `_apply` sends the lookup and then each change's requests, in plan order, succeeds, and drops the zone's cached records |
| Apply.DeleteRemovesGroup | octodns_vultr/__init__.py:359-367 | the ids deleted are those of the group the existing record was read from, in order |
| Apply.UpdateIsDeleteThenCreate | octodns_vultr/__init__.py:354-357 | when the API accepts everything and the records are cached, an update sends the deletes and then the creates, and nothing else |
| Apply.ZeroTtlOmitted | octodns_vultr/__init__.py:96-97 | a record's TTL is sent with every create exactly when it is non-zero (`if ttl`) |
| Apply.ZeroPreferenceOmitted | octodns_vultr/__init__.py:98-100 | an MX value's preference is sent as the priority exactly when it is non-zero (`if priority`) |
| Apply.ZeroSrvPriorityOmitted | octodns_vultr/__init__.py:98-100 | an SRV value's priority is sent exactly when it is non-zero (`if priority`) |
| Apply.MissingZoneNotCreated | octodns_vultr/__init__.py:379-383 | as written: a zone `zone_get` does not find is never created; an empty plan for it succeeds having sent only the lookup |
| Apply.ApplyEnsuringZone | octodns_vultr/__init__.py:379-383 | corrected: when the zone is absent, a zone create with the placeholder address is sent right after the lookup; otherwise it behaves exactly as `_apply` |
| Apply.MissingZoneCreated | octodns_vultr/__init__.py:73-77 | corrected: for a zone `zone_get` does not find, the second request is the zone create |

## Left out

- HTTP itself is left out: the requests `Session`, URLs, headers, JSON bodies, and `_do_json`'s decoding. A `Remote` parameter stands in for the API's answers. The listing is one record sequence per model run.
- The octoDNS framework is left out: `Record.new`'s validation, `zone.add_record` (and its duplicate and lenient checks), `Plan`, and `BaseProvider`. Added records are returned as a sequence.
- Logging, `__init__`, `_do_json`, and the `target` and `lenient` arguments of `populate` are left out. They do not affect the results modelled.
- `int()` is modelled as an optional sign followed by ASCII digits. Python also accepts surrounding whitespace, `_` separators and non-ASCII digits. The decoders only ever see data the API stores.
- `zone_metadata(None)` is left out; `_apply` always passes a zone name.
- The zone object `_apply_Delete` reads (`existing.zone`) is taken to be the plan's zone.
- Decode.DataForSpec: does not model that `_data_for_*` and `Record.new` are reached by `getattr` on the type tag. Populate converts the tag to an `RType` first, which is equivalent for the tags in `SUPPORTS`.
- RoundTrip.RecordRoundTrip: assumes the API lists a posted body back unchanged, in posting order, with priority 0 when none was posted. Vultr's storage is not part of this model.
- Cache.ZoneMetadata: models the zone `zone_get` returns as `true` and its `None` as `false`. The zone's contents are not used by the provider.

## Findings

| source | as written | input that shows it | evidently intended | confidence | as-written member | corrected member |
|---|---|---|---|---|---|---|
| octodns_vultr/__init__.py:379-383 | `_apply` catches `VultrClientNotFound` from `zone_metadata` to create a missing zone, but `zone_get` already turns a 404 into `None`, so the handler never runs and the zone is never created | a plan for a zone the API answers 404 for on `GET /domains/<zone>` | create the zone (with the placeholder address) right after the lookup, before any change | not executed | Apply.MissingZoneNotCreated | Apply.MissingZoneCreated |

=== FILE: apply.dfy ===
/** `_apply` and its per-change handlers: the requests a plan turns into,
    and what becomes of the provider's caches. */
module Apply {
  import opened Wrappers
  import opened Records
  import opened Client
  import opened Cache
  import opened Encode
  import opened Populate

  /** One change of a plan; an update replaces `existing` by `desired` (`change.new`). */
  datatype Change =
    | Create(desired: Record)
    | Update(existing: Record, desired: Record)
    | Delete(existing: Record)

  /** A plan for one zone: the zone's name (with its trailing dot) and the
      changes, in the order they are applied. */
  datatype Plan = Plan(zoneName: string, changes: seq<Change>)

  /** The requests sent, the provider's state afterwards, and the error
      that stopped the sequence, if any. */
  datatype Outcome = Outcome(calls: seq<ApiCall>, state: State, failure: Option<Error>)

  /** Every request of a sequence is about `domain` and none creates a
      zone. */
  predicate OnlyRecordCalls(calls: seq<ApiCall>, domain: string) {
    forall i :: 0 <= i < |calls| ==> calls[i].domain == domain && !calls[i].CreateZone? && !calls[i].GetZone?
  }

  /** Sending record requests after record requests sends only record
      requests. */
  lemma RunOnlyRecordCalls(before: seq<ApiCall>, calls: seq<ApiCall>, remote: Remote, domain: string)
    requires OnlyRecordCalls(before, domain) && OnlyRecordCalls(calls, domain)
    ensures OnlyRecordCalls(Run(calls, remote).calls, domain)
    ensures OnlyRecordCalls(before + Run(calls, remote).calls, domain)
  {
    var sent := Run(calls, remote).calls;
    forall i | 0 <= i < |before + sent|
      ensures (before + sent)[i].domain == domain && !(before + sent)[i].CreateZone? && !(before + sent)[i].GetZone?
    {
      if i >= |before| {
        assert (before + sent)[i] == calls[i - |before|];
      }
    }
  }

  /** Record requests followed by record requests are record requests. */
  lemma OnlyRecordCallsAppend(a: seq<ApiCall>, b: seq<ApiCall>, domain: string)
    requires OnlyRecordCalls(a, domain) && OnlyRecordCalls(b, domain)
    ensures OnlyRecordCalls(a + b, domain)
  {
    forall i | |a| <= i < |a + b|
      ensures (a + b)[i] == b[i - |a|]
    {
    }
  }

  /** The `zone_record_create` requests `_apply_Create` sends for a record:
      one per value, in value order. */
  function CreateCalls(domain: string, r: Record): (cs: seq<ApiCall>)
    ensures |cs| == ValueCount(r.data)
    ensures forall i :: 0 <= i < |cs| ==>
      && cs[i].CreateRecord?
      && cs[i].domain == domain
      && cs[i].body.rtype == TypeName(TypeOf(r.data))
      && ReadName(cs[i].body.name) == (if r.name == "@" then "" else r.name)
      && (cs[i].body.ttl.Some? <==> r.ttl != 0)
      && (cs[i].body.priority.Some? ==> Prioritised(TypeOf(r.data)))
      && cs[i].body.data == ParamsFor(r)[i].data
  {
    var ps := ParamsFor(r);
    seq(|ps|, i requires 0 <= i < |ps| => CreateRecord(domain, Post(ps[i])))
  }

  /** The creates are record requests. */
  lemma CreateRecordCalls(zoneName: string, r: Record)
    ensures OnlyRecordCalls(CreateCalls(Domain(zoneName), r), Domain(zoneName))
  {
  }

  /** `_apply_Create`: the creates, sent in order until one is rejected. */
  function ApplyCreate(s: State, zoneName: string, r: Record, remote: Remote): (o: Outcome)
    ensures o.state == s
    ensures o.failure.None? ==> o.calls == CreateCalls(Domain(zoneName), r)
    ensures o.failure.Some? ==> 0 < |o.calls| <= |CreateCalls(Domain(zoneName), r)| && o.calls == CreateCalls(Domain(zoneName), r)[..|o.calls|]
    ensures OnlyRecordCalls(o.calls, Domain(zoneName))
    ensures SentInOrder(CreateCalls(Domain(zoneName), r), remote, o.calls, o.failure)
  {
    var cs := CreateCalls(Domain(zoneName), r);
    RunInOrder(cs, remote);
    CreateRecordCalls(zoneName, r);
    RunOnlyRecordCalls([], cs, remote, Domain(zoneName));
    var run := Run(cs, remote);
    Outcome(run.calls, s, run.failure)
  }

  /** The `zone_record_delete` requests `_apply_Delete` sends: one for each
      listed record with the existing record's name and type, in listing
      order. */
  function DeleteCalls(domain: string, listing: seq<ProviderRecord>, r: Record): (cs: seq<ApiCall>)
    ensures |cs| == |Matching(listing, r.name, TypeOf(r.data))|
    ensures forall i :: 0 <= i < |cs| ==> cs[i] == DeleteRecord(domain, Matching(listing, r.name, TypeOf(r.data))[i].id)
  {
    var ms := Matching(listing, r.name, TypeOf(r.data));
    seq(|ms|, i requires 0 <= i < |ms| => DeleteRecord(domain, ms[i].id))
  }

  /** The deletes and the listing before them are record requests. */
  lemma DeleteRecordCalls(s: State, zoneName: string, listing: seq<ProviderRecord>, r: Record, remote: Remote)
    ensures OnlyRecordCalls(DeleteCalls(Domain(zoneName), listing, r), Domain(zoneName))
    ensures OnlyRecordCalls(ZoneRecords(s, zoneName, remote).calls, Domain(zoneName))
  {
  }

  /** Every listed record with the existing record's name and type gets a
      delete, and every delete is of such a record. */
  lemma DeleteCallsCover(domain: string, listing: seq<ProviderRecord>, r: Record)
    ensures forall j :: 0 <= j < |listing| && listing[j].name == r.name && listing[j].rtype == TypeName(TypeOf(r.data)) ==>
      DeleteRecord(domain, listing[j].id) in DeleteCalls(domain, listing, r)
    ensures forall k :: 0 <= k < |DeleteCalls(domain, listing, r)| ==>
      exists j :: 0 <= j < |listing| && listing[j].name == r.name && listing[j].rtype == TypeName(TypeOf(r.data)) &&
        DeleteCalls(domain, listing, r)[k] == DeleteRecord(domain, listing[j].id)
  {
    var ms := Matching(listing, r.name, TypeOf(r.data));
    var cs := DeleteCalls(domain, listing, r);
    MatchingComplete(listing, r.name, TypeOf(r.data));
    forall j | 0 <= j < |listing| && listing[j].name == r.name && listing[j].rtype == TypeName(TypeOf(r.data))
      ensures DeleteRecord(domain, listing[j].id) in cs
    {
      var i :| 0 <= i < |ms| && ms[i] == listing[j];
      assert cs[i] == DeleteRecord(domain, listing[j].id);
    }
    forall k | 0 <= k < |cs|
      ensures exists j :: 0 <= j < |listing| && listing[j].name == r.name && listing[j].rtype == TypeName(TypeOf(r.data)) && cs[k] == DeleteRecord(domain, listing[j].id)
    {
      var j :| 0 <= j < |listing| && listing[j] == ms[k];
    }
  }

  /** `_apply_Delete`: the zone's records (cached, or listed and cached),
      then a delete for each of the existing record's, until one is
      rejected. */
  function ApplyDelete(s: State, zoneName: string, r: Record, remote: Remote): (o: Outcome)
    ensures var l := ZoneRecords(s, zoneName, remote);
      && o.state == l.state
      && |l.calls| <= |o.calls| && o.calls[..|l.calls|] == l.calls
      && (l.result.Failure? ==> o == Outcome(l.calls, l.state, Some(l.result.error)))
      && (l.result.Success? && o.failure.None? ==> o.calls == l.calls + DeleteCalls(Domain(zoneName), l.result.value, r))
    ensures OnlyRecordCalls(o.calls, Domain(zoneName))
    ensures var l := ZoneRecords(s, zoneName, remote);
      l.result.Success? ==> SentInOrder(DeleteCalls(Domain(zoneName), l.result.value, r), remote, o.calls[|l.calls|..], o.failure)
  {
    var l := ZoneRecords(s, zoneName, remote);
    if l.result.Failure? then Outcome(l.calls, l.state, Some(l.result.error))
    else
      var cs := DeleteCalls(Domain(zoneName), l.result.value, r);
      RunInOrder(cs, remote);
      DeleteRecordCalls(s, zoneName, l.result.value, r, remote);
      RunOnlyRecordCalls(l.calls, cs, remote, Domain(zoneName));
      var run := Run(cs, remote);
      assert (l.calls + run.calls)[|l.calls|..] == run.calls;
      Outcome(l.calls + run.calls, l.state, run.failure)
  }

  /** `_apply_Update`: delete the existing record, then create the desired
      one; a failed delete means no create is sent. */
  function ApplyUpdate(s: State, zoneName: string, existing: Record, desired: Record, remote: Remote): (o: Outcome)
    ensures var d := ApplyDelete(s, zoneName, existing, remote);
      && (d.failure.Some? ==> o == d)
      && (d.failure.None? ==> o.state == d.state && |d.calls| <= |o.calls| && o.calls[..|d.calls|] == d.calls)
    ensures OnlyRecordCalls(o.calls, Domain(zoneName))
    ensures var d := ApplyDelete(s, zoneName, existing, remote);
      d.failure.None? ==> SentInOrder(CreateCalls(Domain(zoneName), desired), remote, o.calls[|d.calls|..], o.failure)
  {
    var d := ApplyDelete(s, zoneName, existing, remote);
    if d.failure.Some? then d
    else
      var c := ApplyCreate(d.state, zoneName, desired, remote);
      OnlyRecordCallsAppend(d.calls, c.calls, Domain(zoneName));
      assert (d.calls + c.calls)[|d.calls|..] == c.calls;
      Outcome(d.calls + c.calls, c.state, c.failure)
  }

  /** `_apply_<class name>`: one change's handler. */
  function ApplyChange(s: State, zoneName: string, c: Change, remote: Remote): (o: Outcome)
    ensures o.state.zoneMetadata == s.zoneMetadata
    ensures o.state.zoneRecords - {zoneName} == s.zoneRecords - {zoneName}
    ensures zoneName in s.zoneRecords ==> o.state == s
    ensures OnlyRecordCalls(o.calls, Domain(zoneName))
  {
    match c
    case Create(desired) => ApplyCreate(s, zoneName, desired, remote)
    case Update(existing, desired) => ApplyUpdate(s, zoneName, existing, desired, remote)
    case Delete(existing) => ApplyDelete(s, zoneName, existing, remote)
  }

  /** The loop over the plan's changes: each handled in order, the first
      error ending the loop. Only this zone's record cache can change, and
      every request is about this zone's records. */
  function ApplyChanges(s: State, zoneName: string, cs: seq<Change>, remote: Remote): (o: Outcome)
    ensures o.state.zoneMetadata == s.zoneMetadata
    ensures o.state.zoneRecords - {zoneName} == s.zoneRecords - {zoneName}
    ensures zoneName in s.zoneRecords ==> o.state == s
    ensures OnlyRecordCalls(o.calls, Domain(zoneName))
    ensures |cs| == 0 ==> o == Outcome([], s, None)
    ensures |cs| > 0 ==> var first := ApplyChange(s, zoneName, cs[0], remote);
      first.failure.Some? ==> o == first
    decreases |cs|
  {
    if |cs| == 0 then Outcome([], s, None)
    else
      var o := ApplyChange(s, zoneName, cs[0], remote);
      if o.failure.Some? then o
      else
        var rest := ApplyChanges(o.state, zoneName, cs[1..], remote);
        Outcome(o.calls + rest.calls, rest.state, rest.failure)
  }

  /** What `_apply` does once the zone is looked up: the changes, in
      order, and then the zone's cached records dropped, but only when every
      change went through. */
  function ApplyThenForget(calls: seq<ApiCall>, s: State, zoneName: string, cs: seq<Change>, remote: Remote): (o: Outcome)
    ensures |calls| <= |o.calls| && o.calls[..|calls|] == calls
    ensures forall i :: |calls| <= i < |o.calls| ==> o.calls[i].domain == Domain(zoneName) && !o.calls[i].CreateZone?
    ensures o.failure.None? ==> zoneName !in o.state.zoneRecords
    ensures o.state.zoneRecords - {zoneName} == s.zoneRecords - {zoneName}
    ensures o.failure.Some? && zoneName in s.zoneRecords ==> o.state.zoneRecords == s.zoneRecords
    ensures o.state.zoneMetadata == s.zoneMetadata
  {
    var o := ApplyChanges(s, zoneName, cs, remote);
    if o.failure.Some? then Outcome(calls + o.calls, o.state, o.failure)
    else Outcome(calls + o.calls, o.state.(zoneRecords := o.state.zoneRecords - {zoneName}), None)
  }

  /** `_apply`: look the zone up (a 404 is read as "absent" by `zone_get`),
      apply the changes in order, and drop the zone's cached records, but
      only when every change went through. The zone is never created. */
  function ApplyPlan(s: State, plan: Plan, remote: Remote): (o: Outcome)
    ensures var m := ZoneMetadata(s, plan.zoneName, remote);
      |m.calls| <= |o.calls| && o.calls[..|m.calls|] == m.calls
    ensures forall i :: 0 <= i < |o.calls| ==> !o.calls[i].CreateZone?
    ensures o.failure.None? ==> plan.zoneName !in o.state.zoneRecords
    ensures o.state.zoneRecords - {plan.zoneName} == s.zoneRecords - {plan.zoneName}
    ensures o.failure.Some? && plan.zoneName in s.zoneRecords ==> o.state.zoneRecords == s.zoneRecords
    ensures o.state.zoneMetadata == ZoneMetadata(s, plan.zoneName, remote).state.zoneMetadata
    ensures o.state.zoneMetadata - {plan.zoneName} == s.zoneMetadata - {plan.zoneName}
    ensures var m := ZoneMetadata(s, plan.zoneName, remote);
      m.result.Failure? ==> o == Outcome(m.calls, m.state, Some(m.result.error))
    ensures var m := ZoneMetadata(s, plan.zoneName, remote);
      var c := ApplyChanges(m.state, plan.zoneName, plan.changes, remote);
      m.result.Success? ==> o.calls == m.calls + c.calls && o.failure == c.failure
  {
    var m := ZoneMetadata(s, plan.zoneName, remote);
    ZoneMetadataFrame(s, plan.zoneName, remote);
    if m.result.Failure? then Outcome(m.calls, m.state, Some(m.result.error))
    else
      ApplyThenForget(m.calls, m.state, plan.zoneName, plan.changes, remote)
  }

  /** The requests a change sends when the zone's listing is `listing` and
      the API accepts every one: the creates, the deletes, or for an update
      the deletes and then the creates. */
  function ChangeCalls(domain: string, listing: seq<ProviderRecord>, c: Change): seq<ApiCall> {
    match c
    case Create(desired) => CreateCalls(domain, desired)
    case Update(existing, desired) => DeleteCalls(domain, listing, existing) + CreateCalls(domain, desired)
    case Delete(existing) => DeleteCalls(domain, listing, existing)
  }

  /** The requests of every change of a plan, in plan order. */
  function PlanCalls(domain: string, listing: seq<ProviderRecord>, cs: seq<Change>): seq<ApiCall>
    decreases |cs|
  {
    if |cs| == 0 then [] else ChangeCalls(domain, listing, cs[0]) + PlanCalls(domain, listing, cs[1..])
  }

  /** With the zone's records cached and every request accepted, a change
      sends exactly its requests and leaves the state alone. */
  lemma ApplyChangeAccepted(s: State, zoneName: string, c: Change, remote: Remote)
    requires zoneName in s.zoneRecords
    requires AllAccepted(ChangeCalls(Domain(zoneName), s.zoneRecords[zoneName], c), remote)
    ensures ApplyChange(s, zoneName, c, remote) == Outcome(ChangeCalls(Domain(zoneName), s.zoneRecords[zoneName], c), s, None)
  {
    match c
    case Create(desired) =>
    case Update(existing, desired) =>
      AllAcceptedAppend(DeleteCalls(Domain(zoneName), s.zoneRecords[zoneName], existing), CreateCalls(Domain(zoneName), desired), remote);
      UpdateIsDeleteThenCreate(s, zoneName, existing, desired, remote);
    case Delete(existing) =>
      var o := ApplyDelete(s, zoneName, existing, remote);
      assert o.calls[0..] == o.calls;
  }

  /** With the zone's records cached and every request accepted, the loop
      over the changes sends each change's requests in plan order and
      nothing else. */
  lemma {:induction false} ApplyChangesAccepted(s: State, zoneName: string, cs: seq<Change>, remote: Remote)
    requires zoneName in s.zoneRecords
    requires AllAccepted(PlanCalls(Domain(zoneName), s.zoneRecords[zoneName], cs), remote)
    ensures ApplyChanges(s, zoneName, cs, remote) == Outcome(PlanCalls(Domain(zoneName), s.zoneRecords[zoneName], cs), s, None)
    decreases |cs|
  {
    if |cs| > 0 {
      var listing := s.zoneRecords[zoneName];
      AllAcceptedAppend(ChangeCalls(Domain(zoneName), listing, cs[0]), PlanCalls(Domain(zoneName), listing, cs[1..]), remote);
      ApplyChangeAccepted(s, zoneName, cs[0], remote);
      ApplyChangesAccepted(s, zoneName, cs[1..], remote);
    }
  }

  /** `_apply` with the zone's records cached, the lookup answered and every
      change request accepted: the lookup, then each change's requests in
      plan order; the zone's cached records are dropped afterwards. */
  lemma ApplyPlanAccepted(s: State, plan: Plan, remote: Remote)
    requires plan.zoneName in s.zoneRecords
    requires ZoneMetadata(s, plan.zoneName, remote).result.Success?
    requires AllAccepted(PlanCalls(Domain(plan.zoneName), s.zoneRecords[plan.zoneName], plan.changes), remote)
    ensures var m := ZoneMetadata(s, plan.zoneName, remote);
      ApplyPlan(s, plan, remote) ==
        Outcome(m.calls + PlanCalls(Domain(plan.zoneName), s.zoneRecords[plan.zoneName], plan.changes),
                m.state.(zoneRecords := s.zoneRecords - {plan.zoneName}), None)
  {
    var m := ZoneMetadata(s, plan.zoneName, remote);
    ApplyChangesAccepted(m.state, plan.zoneName, plan.changes, remote);
  }

  /** Changes are applied in plan order: applying `a + b` is applying `a`,
      then, if nothing failed, `b` from the state `a` left. */
  lemma {:induction false} ApplyChangesAppend(s: State, zoneName: string, a: seq<Change>, b: seq<Change>, remote: Remote)
    decreases |a|
    ensures var oa := ApplyChanges(s, zoneName, a, remote);
      ApplyChanges(s, zoneName, a + b, remote) ==
        if oa.failure.Some? then oa
        else
          var ob := ApplyChanges(oa.state, zoneName, b, remote);
          Outcome(oa.calls + ob.calls, ob.state, ob.failure)
  {
    if |a| > 0 {
      assert (a + b)[0] == a[0];
      assert (a + b)[1..] == a[1..] + b;
      var o := ApplyChange(s, zoneName, a[0], remote);
      if o.failure.None? {
        ApplyChangesAppend(o.state, zoneName, a[1..], b, remote);
      }
    } else {
      assert a + b == b;
    }
  }

  /** A plan of one change is handled exactly as that change alone: its
      requests, its state and its error. */
  lemma ApplyChangesOne(s: State, zoneName: string, c: Change, remote: Remote)
    ensures ApplyChanges(s, zoneName, [c], remote) == ApplyChange(s, zoneName, c, remote)
  {
    assert [c][1..] == [];
  }

  /** A delete removes exactly the provider records `populate` read the
      existing record from: the ids of its group, in listing order. */
  lemma DeleteRemovesGroup(domain: string, listing: seq<ProviderRecord>, r: Record)
    ensures var group := Members(GroupRecords(listing), r.name, TypeOf(r.data));
      var cs := DeleteCalls(domain, listing, r);
      |cs| == |group| && forall i :: 0 <= i < |cs| ==> cs[i] == DeleteRecord(domain, group[i].id)
  {
    GroupingLaw(listing, r.name, TypeOf(r.data));
  }

  /** When the API accepts everything, an update with the records already
      cached sends the deletes of the existing record's group, then the
      creates of the desired record's values, and nothing else. */
  lemma UpdateIsDeleteThenCreate(s: State, zoneName: string, existing: Record, desired: Record, remote: Remote)
    requires zoneName in s.zoneRecords
    requires AllAccepted(DeleteCalls(Domain(zoneName), s.zoneRecords[zoneName], existing), remote)
    requires AllAccepted(CreateCalls(Domain(zoneName), desired), remote)
    ensures ApplyUpdate(s, zoneName, existing, desired, remote) ==
      Outcome(DeleteCalls(Domain(zoneName), s.zoneRecords[zoneName], existing) + CreateCalls(Domain(zoneName), desired), s, None)
  {
  }

  /** The TTL is sent exactly when it is non-zero (`if ttl`); a zero TTL
      leaves the API to apply its own default. */
  lemma ZeroTtlOmitted(domain: string, r: Record)
    ensures forall i :: 0 <= i < |CreateCalls(domain, r)| ==>
      CreateCalls(domain, r)[i].body.ttl == (if r.ttl == 0 then None else Some(r.ttl))
  {
  }

  /** A zero MX preference is not sent (`if priority`); any other is. */
  lemma ZeroPreferenceOmitted(domain: string, r: Record)
    requires r.data.MxValues?
    ensures forall i :: 0 <= i < |r.data.mxs| ==>
      CreateCalls(domain, r)[i].body.priority == (if r.data.mxs[i].preference == 0 then None else Some(r.data.mxs[i].preference))
  {
    var ps := ParamsFor(r);
    assert forall i :: 0 <= i < |r.data.mxs| ==> ps[i].priority == Some(r.data.mxs[i].preference) && ps[i].rtype == "MX";
  }

  /** A zero SRV priority is not sent (`if priority`); any other is. */
  lemma ZeroSrvPriorityOmitted(domain: string, r: Record)
    requires r.data.SrvValues?
    ensures forall i :: 0 <= i < |r.data.srvs| ==>
      CreateCalls(domain, r)[i].body.priority == (if r.data.srvs[i].priority == 0 then None else Some(r.data.srvs[i].priority))
  {
    var ps := ParamsFor(r);
    assert forall i :: 0 <= i < |r.data.srvs| ==> ps[i].priority == Some(r.data.srvs[i].priority) && ps[i].rtype == "SRV";
  }

  /** `_apply` as its exception handler intends it: when the zone does not
      exist, create it (with the placeholder address) before applying the
      changes. */
  function ApplyEnsuringZone(s: State, plan: Plan, remote: Remote): (o: Outcome)
    ensures var m := ZoneMetadata(s, plan.zoneName, remote);
      m.result == Success(false) ==>
        |o.calls| > |m.calls| && o.calls[|m.calls|] == CreateZone(Domain(plan.zoneName), PlaceholderIp)
    ensures var m := ZoneMetadata(s, plan.zoneName, remote);
      m.result != Success(false) ==> o == ApplyPlan(s, plan, remote)
    ensures o.failure.None? ==> plan.zoneName !in o.state.zoneRecords
  {
    var m := ZoneMetadata(s, plan.zoneName, remote);
    if m.result.Failure? || m.result.value then ApplyPlan(s, plan, remote)
    else
      var create := Run([CreateZone(Domain(plan.zoneName), PlaceholderIp)], remote);
      if create.failure.Some? then Outcome(m.calls + create.calls, m.state, create.failure)
      else ApplyThenForget(m.calls + create.calls, m.state, plan.zoneName, plan.changes, remote)
  }

  /** The code as written: a zone `zone_get` does not find (a 404) is
      cached as absent, and `_apply` goes on to its changes without
      creating it; with no changes, it reports success having sent only
      the lookup. */
  lemma MissingZoneNotCreated(s: State, zoneName: string, remote: Remote)
    requires zoneName !in s.zoneMetadata && zoneName !in s.zoneRecords
    requires remote.status(GetZone(Domain(zoneName))) == 404
    ensures ApplyPlan(s, Plan(zoneName, []), remote).calls == [GetZone(Domain(zoneName))]
    ensures ApplyPlan(s, Plan(zoneName, []), remote).failure.None?
  {
  }

  /** The corrected `_apply`: a missing zone is created right after the
      lookup and before any change. */
  lemma MissingZoneCreated(s: State, zoneName: string, remote: Remote)
    requires zoneName !in s.zoneMetadata
    requires remote.status(GetZone(Domain(zoneName))) == 404
    ensures ApplyEnsuringZone(s, Plan(zoneName, []), remote).calls[..2] ==
      [GetZone(Domain(zoneName)), CreateZone(Domain(zoneName), PlaceholderIp)]
  {
  }
}

=== FILE: cache.dfy ===
/** The provider's two per-zone caches, `_zone_records` and
    `_zone_metadata`, and the two lookups that fill them. */
module Cache {
  import opened Wrappers
  import opened Records
  import opened Client

  /** The provider's mutable state: fetched record lists by zone name, and
      by zone name whether `zone_get` found the zone (`false` is the `None`
      it returns on a 404). */
  datatype State = State(
    zoneRecords: map<string, seq<ProviderRecord>>,
    zoneMetadata: map<string, bool>)

  /** `zone.name[:-1]`: the zone name without its trailing dot, as the API's
      paths want it. */
  function Domain(zoneName: string): (d: string)
    ensures |zoneName| > 0 ==> d + [zoneName[|zoneName| - 1]] == zoneName
    ensures |zoneName| == 0 ==> d == ""
  {
    if |zoneName| == 0 then "" else zoneName[..|zoneName| - 1]
  }

  /** The requests a lookup sent, the state after it, and its result. */
  datatype Lookup<T> = Lookup(calls: seq<ApiCall>, state: State, result: Result<T, Error>)

  /** `zone_records`: the cached list when there is one; otherwise the
      listing, which is cached when it succeeds, read as an empty list
      (and not cached) on a 404, and raised on any other error. */
  function ZoneRecords(s: State, zoneName: string, remote: Remote): (l: Lookup<seq<ProviderRecord>>)
    ensures zoneName in s.zoneRecords ==> l == Lookup([], s, Success(s.zoneRecords[zoneName]))
    ensures zoneName !in s.zoneRecords ==> l.calls == [ListRecords(Domain(zoneName))]
    ensures l.state.zoneMetadata == s.zoneMetadata
    ensures l.state.zoneRecords - {zoneName} == s.zoneRecords - {zoneName}
    ensures zoneName in l.state.zoneRecords ==> l.result == Success(l.state.zoneRecords[zoneName])
    ensures l.result.Success? && zoneName !in l.state.zoneRecords ==> l.result.value == []
    ensures zoneName !in s.zoneRecords && l.result.Success? ==>
      forall i :: 0 <= i < |l.result.value| ==> l.result.value[i].name != "@"
    ensures zoneName !in s.zoneRecords ==>
      var e := StatusError(remote.status(ListRecords(Domain(zoneName))));
      && (e.None? ==>
            && l.result == Success(NormalizeApex(remote.listing))
            && l.state == s.(zoneRecords := s.zoneRecords[zoneName := NormalizeApex(remote.listing)]))
      && (e == Some(NotFound) ==> l.result == Success([]) && l.state == s)
      && (e.Some? && e != Some(NotFound) ==> l.result == Failure(e.value) && l.state == s)
  {
    if zoneName in s.zoneRecords then Lookup([], s, Success(s.zoneRecords[zoneName]))
    else
      var call := ListRecords(Domain(zoneName));
      var e := StatusError(remote.status(call));
      if e.None? then
        var rs := NormalizeApex(remote.listing);
        Lookup([call], s.(zoneRecords := s.zoneRecords[zoneName := rs]), Success(rs))
      else if e.value == NotFound then Lookup([call], s, Success([]))
      else Lookup([call], s, Failure(e.value))
  }

  /** `zone_metadata`: the cached answer when there is one; otherwise
      `zone_get`, whose 404 is swallowed into a cached "absent", while any
      other error is raised. */
  function ZoneMetadata(s: State, zoneName: string, remote: Remote): (l: Lookup<bool>)
    ensures zoneName in s.zoneMetadata ==> l == Lookup([], s, Success(s.zoneMetadata[zoneName]))
    ensures zoneName !in s.zoneMetadata ==> l.calls == [GetZone(Domain(zoneName))]
    ensures l.state.zoneRecords == s.zoneRecords
    ensures l.result.Success? <==> zoneName in l.state.zoneMetadata
    ensures l.result.Success? ==> l.result.value == l.state.zoneMetadata[zoneName]
    ensures l.result.Failure? ==> l.result.error != NotFound && l.state == s
    ensures zoneName !in s.zoneMetadata ==>
      var e := StatusError(remote.status(GetZone(Domain(zoneName))));
      && (e.None? ==> l.result == Success(true) && l.state == s.(zoneMetadata := s.zoneMetadata[zoneName := true]))
      && (e == Some(NotFound) ==> l.result == Success(false) && l.state == s.(zoneMetadata := s.zoneMetadata[zoneName := false]))
      && (e.Some? && e != Some(NotFound) ==> l.result == Failure(e.value) && l.state == s)
  {
    if zoneName in s.zoneMetadata then Lookup([], s, Success(s.zoneMetadata[zoneName]))
    else
      var call := GetZone(Domain(zoneName));
      var e := StatusError(remote.status(call));
      if e.None? then Lookup([call], s.(zoneMetadata := s.zoneMetadata[zoneName := true]), Success(true))
      else if e.value == NotFound then Lookup([call], s.(zoneMetadata := s.zoneMetadata[zoneName := false]), Success(false))
      else Lookup([call], s, Failure(e.value))
  }

  /** Once `zone_records` has cached a zone's list, a later call answers
      from the cache: no request, whatever the API would say, and the same
      list. */
  lemma ZoneRecordsCached(s: State, zoneName: string, remote: Remote, later: Remote)
    requires ZoneRecords(s, zoneName, remote).result.Success?
    requires zoneName in ZoneRecords(s, zoneName, remote).state.zoneRecords
    ensures var l := ZoneRecords(s, zoneName, remote);
      ZoneRecords(l.state, zoneName, later) == Lookup([], l.state, l.result)
  {
  }

  /** Once `zone_metadata` has answered for a zone, found or not, a later
      call answers the same from the cache without a request. */
  lemma ZoneMetadataCached(s: State, zoneName: string, remote: Remote, later: Remote)
    requires ZoneMetadata(s, zoneName, remote).result.Success?
    ensures var m := ZoneMetadata(s, zoneName, remote);
      ZoneMetadata(m.state, zoneName, later) == Lookup([], m.state, m.result)
  {
  }

  /** `zone_metadata` only ever writes the entry of the zone asked about. */
  lemma ZoneMetadataFrame(s: State, zoneName: string, remote: Remote)
    ensures ZoneMetadata(s, zoneName, remote).state.zoneMetadata - {zoneName} == s.zoneMetadata - {zoneName}
  {
  }
}

=== FILE: client.dfy ===
/** `VultrClient`: the requests the provider issues, how an HTTP status
    becomes an exception, and the shaping of names, TTLs and priorities on
    the way to and from the wire. The HTTP session itself is a parameter:
    `Remote` gives the status the API answers each request with, and the
    record list it returns. */
module Client {
  import opened Wrappers
  import opened Records

  /** The body `zone_record_create` posts; absent keys are `None`. */
  datatype Payload = Payload(
    name: string,
    rtype: string,
    data: string,
    ttl: Option<int>,
    priority: Option<int>)

  /** One request to the API, with the path's domain and the body it sends. */
  datatype ApiCall =
    | GetZone(domain: string)
    | CreateZone(domain: string, ip: string)
    | ListRecords(domain: string)
    | CreateRecord(domain: string, body: Payload)
    | DeleteRecord(domain: string, id: string)

  /** The seed address `zone_create` supplies (TEST-NET-1). */
  const PlaceholderIp: string := "192.0.2.1"

  /** The API as the model sees it: the status each request is answered
      with, and the records a successful listing returns. */
  datatype Remote = Remote(status: ApiCall -> int, listing: seq<ProviderRecord>)

  /** `_do`: 401, 404 and 403 raise the client's own exceptions, any other
      4xx or 5xx raises from `raise_for_status`, everything else succeeds. */
  function StatusError(status: int): (e: Option<Error>)
    ensures e.None? <==> !(400 <= status < 600)
    ensures e == Some(Unauthorized) <==> status == 401
    ensures e == Some(Forbidden) <==> status == 403
    ensures e == Some(NotFound) <==> status == 404
    ensures e.Some? && status != 401 && status != 403 && status != 404 ==> e == Some(HttpError(status))
  {
    if status == 401 then Some(Unauthorized)
    else if status == 404 then Some(NotFound)
    else if status == 403 then Some(Forbidden)
    else if 400 <= status < 600 then Some(HttpError(status))
    else None
  }

  /** The statuses the client's tests exercise: 401, 403 and 404 raise the
      client's own exceptions, a 502 the HTTP error carrying it, and a 200
      nothing. */
  lemma StatusExamples()
    ensures StatusError(401) == Some(Unauthorized)
    ensures StatusError(403) == Some(Forbidden)
    ensures StatusError(404) == Some(NotFound)
    ensures StatusError(502) == Some(HttpError(502))
    ensures StatusError(200).None?
  {
  }

  /** The status the API answers every request of a sequence with is a
      success. */
  predicate AllAccepted(calls: seq<ApiCall>, remote: Remote) {
    forall i :: 0 <= i < |calls| ==> StatusError(remote.status(calls[i])).None?
  }

  /** A concatenation is accepted exactly when both parts are. */
  lemma AllAcceptedAppend(a: seq<ApiCall>, b: seq<ApiCall>, remote: Remote)
    ensures AllAccepted(a + b, remote) <==> AllAccepted(a, remote) && AllAccepted(b, remote)
  {
    if AllAccepted(a + b, remote) {
      forall i | 0 <= i < |a| ensures StatusError(remote.status(a[i])).None? {
        assert a[i] == (a + b)[i];
      }
      forall i | 0 <= i < |b| ensures StatusError(remote.status(b[i])).None? {
        assert b[i] == (a + b)[|a| + i];
      }
    }
  }

  /** `sent` and `failure` are what sending `calls` one by one gives: a
      prefix of `calls` is sent; the sequence fails exactly when the API
      rejects one of them, with the error of the last one sent, the only
      one rejected; otherwise all of them are sent. */
  predicate SentInOrder(calls: seq<ApiCall>, remote: Remote, sent: seq<ApiCall>, failure: Option<Error>) {
    && |sent| <= |calls|
    && sent == calls[..|sent|]
    && (failure.None? <==> AllAccepted(calls, remote))
    && (failure.None? ==> sent == calls)
    && (failure.Some? ==>
          && |sent| > 0
          && failure == StatusError(remote.status(sent[|sent| - 1]))
          && AllAccepted(sent[..|sent| - 1], remote))
  }

  /** The requests actually sent, and the error that stopped the sequence. */
  datatype Issued = Issued(calls: seq<ApiCall>, failure: Option<Error>)

  /** Sends `calls` in order; the first one the API rejects raises, and
      nothing after it is sent. */
  function Run(calls: seq<ApiCall>, remote: Remote): (r: Issued)
    ensures r.failure.None? <==> forall i :: 0 <= i < |calls| ==> StatusError(remote.status(calls[i])).None?
    ensures r.failure.None? ==> r.calls == calls
    ensures r.failure.Some? ==>
      && 0 < |r.calls| <= |calls|
      && r.calls == calls[..|r.calls|]
      && StatusError(remote.status(r.calls[|r.calls| - 1])) == r.failure
      && forall i :: 0 <= i < |r.calls| - 1 ==> StatusError(remote.status(calls[i])).None?
  {
    if |calls| == 0 then Issued([], None)
    else
      var e := StatusError(remote.status(calls[0]));
      if e.Some? then Issued([calls[0]], e)
      else
        var rest := Run(calls[1..], remote);
        assert forall i :: 1 <= i < |calls| ==> calls[i] == calls[1..][i - 1];
        Issued([calls[0]] + rest.calls, rest.failure)
  }

  /** `Run` sends its requests in order, as `SentInOrder` describes. */
  lemma RunInOrder(calls: seq<ApiCall>, remote: Remote)
    ensures SentInOrder(calls, remote, Run(calls, remote).calls, Run(calls, remote).failure)
  {
    var r := Run(calls, remote);
    if r.failure.Some? {
      var mid := r.calls[..|r.calls| - 1];
      forall i | 0 <= i < |mid|
        ensures StatusError(remote.status(mid[i])).None?
      {
        assert mid[i] == calls[i];
      }
    }
  }

  /** The name `zone_records_get` hands on: the apex `@` becomes `""`. */
  function ReadName(n: string): string {
    if n == "@" then "" else n
  }

  /** The name `zone_record_create` sends: `name or '@'`. */
  function WireName(n: string): string {
    if n == "" then "@" else n
  }

  /** The apex spellings are inverse on every name except the one each side
      reserves: any name but `@` survives a write then a read, and any wire
      name but `""` survives a read then a write. */
  lemma ApexRoundTrip(n: string, m: string)
    ensures WireName(n) != "" && ReadName(m) != "@"
    ensures n != "@" ==> ReadName(WireName(n)) == n
    ensures m != "" ==> WireName(ReadName(m)) == m
  {
  }

  /** `zone_records_get`'s rewrite of the listed records: `@` names become
      `""`, nothing else changes. */
  function NormalizeApex(rs: seq<ProviderRecord>): (out: seq<ProviderRecord>)
    ensures |out| == |rs|
    ensures forall i :: 0 <= i < |rs| ==> out[i].name != "@"
    ensures forall i :: 0 <= i < |rs| ==> out[i] == rs[i] || (rs[i].name == "@" && out[i] == rs[i].(name := ""))
  {
    seq(|rs|, i requires 0 <= i < |rs| => rs[i].(name := ReadName(rs[i].name)))
  }

  /** `zone_record_create`'s request body. */
  function BuildPayload(name: string, rtype: string, data: string, ttl: int, priority: Option<int>): (p: Payload)
    ensures p.name != "" && ReadName(p.name) == (if name == "@" then "" else name)
    ensures p.rtype == rtype && p.data == data
    ensures p.ttl.Some? <==> ttl != 0
    ensures p.ttl.Some? ==> p.ttl.value == ttl
    ensures p.priority.Some? <==> priority.Some? && priority.value != 0 && (rtype == "MX" || rtype == "SRV")
    ensures p.priority.Some? ==> p.priority == priority
  {
    Payload(
      WireName(name),
      rtype,
      data,
      if ttl != 0 then Some(ttl) else None,
      if priority.Some? && priority.value != 0 && (rtype == "MX" || rtype == "SRV") then priority else None)
  }
}

=== FILE: decode.dfy ===
/** The read path's per-type decoders, `_data_for_*`: one group of provider
    records sharing a name and a type becomes one octoDNS record.

    The functions here are plain definitions; what they promise is stated
    by the lemmas that follow each of them, so that a proof about one
    record type does not pay for the others. */
module Decode {
  import opened Wrappers
  import opened Text
  import opened Records

  /** The TTL `_record_ttl` falls back on. */
  const DefaultTtl: int := 300

  /** `_record_ttl`: the record's `ttl`, or 300 when the key is missing. */
  function RecordTtl(r: ProviderRecord): (t: int)
    ensures r.ttl.None? ==> t == 300
    ensures r.ttl.Some? ==> t == r.ttl.value
  {
    r.ttl.GetOr(DefaultTtl)
  }

  /** One record's decoding raised. */
  predicate Raises<T>(o: Option<Result<T, Error>>) {
    o.Some? && o.value.Failure?
  }

  /** The number of records in `group` whose `data` holds fewer than two
      spaces: the CAA and SRV records `split(' ', 2)` cannot unpack, which
      are dropped. */
  function Malformed(group: seq<ProviderRecord>): (n: nat)
    ensures n <= |group|
  {
    if |group| == 0 then 0
    else (if AtMostOneSpace(group[0].data) then 1 else 0) + Malformed(group[1..])
  }

  // ---------------------------------------------------------------------
  // The loops over a group

  /** `f` applied to every record of the group, in order: the list
      comprehensions and `for` loops of the `_data_for_*` methods. */
  function Each<T>(group: seq<ProviderRecord>, f: ProviderRecord -> T): (out: seq<T>)
    ensures |out| == |group|
  {
    if |group| == 0 then [] else [f(group[0])] + Each(group[1..], f)
  }

  lemma {:induction false} EachAt<T>(group: seq<ProviderRecord>, f: ProviderRecord -> T)
    ensures forall i :: 0 <= i < |group| ==> Each(group, f)[i] == f(group[i])
  {
    if |group| > 0 {
      EachAt(group[1..], f);
      assert forall i :: 1 <= i < |group| ==> group[i] == group[1..][i - 1];
    }
  }

  /** The number of records whose own decoding gave nothing. */
  function Skipped<T>(os: seq<Option<Result<T, Error>>>): (n: nat)
    ensures n <= |os|
  {
    if |os| == 0 then 0 else (if os[0].None? then 1 else 0) + Skipped(os[1..])
  }

  /** The records' own results collected as the `_data_for_*` loops do:
      the skipped records dropped, the kept ones in order, the first one
      that raises raising. */
  function Gather<T>(os: seq<Option<Result<T, Error>>>): Result<seq<T>, Error> {
    if |os| == 0 then Success([])
    else
      var rest := Gather(os[1..]);
      if os[0].None? then rest
      else if os[0].value.Failure? then Failure(os[0].value.error)
      else if rest.Failure? then rest
      else Success([os[0].value.value] + rest.value)
  }

  /** `Gather` raises exactly when some record raises, and then with that
      record's error; otherwise it keeps every value that is not skipped,
      and nothing else. */
  lemma {:induction false} GatherSpec<T>(os: seq<Option<Result<T, Error>>>)
    ensures Gather(os).Failure? <==> exists i :: 0 <= i < |os| && Raises(os[i])
    ensures Gather(os).Failure? ==> Some(Failure(Gather(os).error)) in os
    ensures Gather(os).Success? ==> |Gather(os).value| == |os| - Skipped(os)
    ensures Gather(os).Success? ==> forall x :: x in Gather(os).value ==> Some(Success(x)) in os
  {
    if |os| > 0 {
      GatherSpec(os[1..]);
      assert forall i :: 1 <= i < |os| ==> os[i] == os[1..][i - 1];
    }
  }

  /** The values of the records that were neither skipped nor raised, in
      record order: what the loops would keep if nothing raised. */
  function Kept<T>(os: seq<Option<Result<T, Error>>>): seq<T> {
    if |os| == 0 then []
    else (if os[0].Some? && os[0].value.Success? then [os[0].value.value] else []) + Kept(os[1..])
  }

  /** Record `i` is the first one whose decoding raises. */
  predicate FirstRaise<T>(os: seq<Option<Result<T, Error>>>, i: int) {
    0 <= i < |os| && Raises(os[i]) && forall j :: 0 <= j < i ==> !Raises(os[j])
  }

  /** A successful `Gather` keeps exactly the kept values, in order; a
      failed one raises the error of the first record that raises. */
  lemma {:induction false} GatherKept<T>(os: seq<Option<Result<T, Error>>>)
    ensures Gather(os).Success? ==> Gather(os).value == Kept(os)
    ensures Gather(os).Failure? ==> exists i :: FirstRaise(os, i) && os[i].value.error == Gather(os).error
  {
    if |os| > 0 {
      GatherKept(os[1..]);
      var g := Gather(os);
      if g.Failure? && !Raises(os[0]) {
        var k :| FirstRaise(os[1..], k) && os[1..][k].value.error == Gather(os[1..]).error;
        assert forall j :: 1 <= j <= k + 1 ==> os[j] == os[1..][j - 1];
        assert FirstRaise(os, k + 1);
      } else if g.Failure? {
        assert FirstRaise(os, 0);
      }
    }
  }

  /** When every record's result is a value, `Gather` keeps them all. */
  lemma {:induction false} GatherAll<T>(os: seq<Option<Result<T, Error>>>, xs: seq<T>)
    requires |os| == |xs|
    requires forall i :: 0 <= i < |xs| ==> os[i] == Some(Success(xs[i]))
    ensures Gather(os) == Success(xs)
  {
    if |os| > 0 {
      GatherAll(os[1..], xs[1..]);
      assert xs == [xs[0]] + xs[1..];
    }
  }

  /** When no record is skipped, a successful `Gather` keeps the values
      position by position. */
  lemma {:induction false} GatherEach<T>(os: seq<Option<Result<T, Error>>>)
    requires forall i :: 0 <= i < |os| ==> os[i].Some?
    ensures Gather(os).Success? ==>
      |Gather(os).value| == |os| && forall k :: 0 <= k < |os| ==> os[k] == Some(Success(Gather(os).value[k]))
  {
    if |os| > 0 {
      GatherEach(os[1..]);
      assert forall i :: 1 <= i < |os| ==> os[i] == os[1..][i - 1];
    }
  }

  /** A decoder that skips exactly the records holding fewer than two
      spaces skips `Malformed(group)` of them. */
  lemma {:induction false} SkippedMalformed<T>(os: seq<Option<Result<T, Error>>>, group: seq<ProviderRecord>)
    requires |os| == |group|
    requires forall i :: 0 <= i < |os| ==> (os[i].None? <==> AtMostOneSpace(group[i].data))
    ensures Skipped(os) == Malformed(group)
  {
    if |os| > 0 {
      SkippedMalformed(os[1..], group[1..]);
    }
  }

  // ---------------------------------------------------------------------
  // A, AAAA, TXT: `_data_for_multiple`

  /** One record's value: its data with ';' escaped. */
  function EscapedData(r: ProviderRecord): string {
    Escape(r.data)
  }

  /** `_data_for_multiple`'s values (A, AAAA, TXT). */
  function EscapedValues(group: seq<ProviderRecord>): seq<string> {
    Each(group, EscapedData)
  }

  /** One value per record, in order, each escaped and unescaping to the
      record's data. */
  lemma EscapedValuesSpec(group: seq<ProviderRecord>)
    ensures |EscapedValues(group)| == |group|
    ensures forall i :: 0 <= i < |group| ==>
      Escaped(EscapedValues(group)[i]) && Unescape(EscapedValues(group)[i]) == group[i].data
  {
    EachAt(group, EscapedData);
    forall i | 0 <= i < |group|
      ensures Unescape(EscapedValues(group)[i]) == group[i].data
    {
      UnescapeEscape(group[i].data);
    }
  }

  // ---------------------------------------------------------------------
  // CAA

  /** One CAA record: `flags tag "value"` split on the first two spaces, the
      value's quotes stripped, the flags read with `int()`; `None` when the
      split gives fewer than three parts. */
  function CaaFrom(r: ProviderRecord): Option<Result<CaaValue, Error>> {
    var parts := Split3(r.data);
    if parts.None? then None
    else
      var (flags, tag, value) := parts.value;
      var n := ParseInt(flags);
      if n.None? then Some(Failure(ValueError))
      else Some(Success(CaaValue(n.value, tag, StripQuotes(value))))
  }

  /** A CAA record is dropped exactly when its data holds fewer than two
      spaces; unreadable flags raise `ValueError`; a kept tag has no space. */
  lemma CaaFromShape(r: ProviderRecord)
    ensures CaaFrom(r).None? <==> AtMostOneSpace(r.data)
    ensures Raises(CaaFrom(r)) ==> CaaFrom(r).value.error == ValueError
    ensures CaaFrom(r).Some? && CaaFrom(r).value.Success? ==> ' ' !in CaaFrom(r).value.value.tag
  {
    Split3Spec(r.data);
  }

  /** A CAA record is dropped exactly when its data holds fewer than two
      spaces, and raises `ValueError` exactly when it splits but its first
      field is not an integer; a kept value is the first field read as an
      integer, the second as the tag (space-free), and the rest with its
      quotes stripped. */
  lemma CaaFromSpec(r: ProviderRecord)
    ensures CaaFrom(r).None? <==> AtMostOneSpace(r.data)
    ensures Raises(CaaFrom(r)) <==> Split3(r.data).Some? && ParseInt(Split3(r.data).value.0).None?
    ensures Raises(CaaFrom(r)) ==> CaaFrom(r).value.error == ValueError
    ensures CaaFrom(r).Some? && CaaFrom(r).value.Success? ==>
      var v := CaaFrom(r).value.value;
      && Split3(r.data).Some?
      && ParseInt(Split3(r.data).value.0) == Some(v.flags)
      && v.tag == Split3(r.data).value.1 && ' ' !in v.tag
      && v.value == StripQuotes(Split3(r.data).value.2)
  {
    CaaFromShape(r);
  }

  /** The data `_params_for_CAA` writes is read back field by field: flags
      `f`, a space-free tag, and the rest with its quotes stripped. */
  lemma CaaFromFields(r: ProviderRecord, f: int, tag: string, rest: string)
    requires ' ' !in tag
    requires r.data == IntToString(f) + " " + tag + " " + rest
    ensures CaaFrom(r) == Some(Success(CaaValue(f, tag, StripQuotes(rest))))
  {
    Split3Of(IntToString(f), tag, rest);
    ParseIntToString(f);
  }

  /** `_data_for_CAA`'s values. */
  function DecodeCaa(group: seq<ProviderRecord>): Result<seq<CaaValue>, Error> {
    Gather(Each(group, CaaFrom))
  }

  /** The counting half of `DecodeCaaSpec`. */
  lemma DecodeCaaBasics(group: seq<ProviderRecord>)
    ensures DecodeCaa(group).Failure? <==> exists i {:trigger CaaFrom(group[i])} :: 0 <= i < |group| && Raises(CaaFrom(group[i]))
    ensures DecodeCaa(group).Failure? ==> DecodeCaa(group).error == ValueError
    ensures DecodeCaa(group).Success? ==> |DecodeCaa(group).value| == |group| - Malformed(group)
    ensures DecodeCaa(group).Success? ==> forall k :: 0 <= k < |DecodeCaa(group).value| ==> ' ' !in DecodeCaa(group).value[k].tag
  {
    var os := Each(group, CaaFrom);
    EachAt(group, CaaFrom);
    GatherSpec(os);
    forall i | 0 <= i < |group|
      ensures os[i].None? <==> AtMostOneSpace(group[i].data)
      ensures Raises(os[i]) ==> os[i].value.error == ValueError
      ensures os[i].Some? && os[i].value.Success? ==> ' ' !in os[i].value.value.tag
    {
      CaaFromShape(group[i]);
    }
    SkippedMalformed(os, group);
    var r := Gather(os);
    if r.Failure? {
      var i :| 0 <= i < |os| && os[i] == Some(Failure(r.error));
    } else {
      forall k | 0 <= k < |r.value|
        ensures ' ' !in r.value[k].tag
      {
        assert r.value[k] in r.value;
        var i :| 0 <= i < |os| && os[i] == Some(Success(r.value[k]));
      }
    }
  }

  /** `_data_for_CAA` raises exactly when some record's flags are
      unreadable, with the first such record's `ValueError`; otherwise it
      keeps the values of all but the malformed records, in record order,
      each with a space-free tag. */
  lemma DecodeCaaSpec(group: seq<ProviderRecord>)
    ensures DecodeCaa(group).Failure? <==> exists i {:trigger CaaFrom(group[i])} :: 0 <= i < |group| && Raises(CaaFrom(group[i]))
    ensures DecodeCaa(group).Failure? ==> DecodeCaa(group).error == ValueError
    ensures DecodeCaa(group).Failure? ==>
      exists i {:trigger CaaFrom(group[i])} :: 0 <= i < |group| && CaaFrom(group[i]) == Some(Failure(DecodeCaa(group).error)) &&
        forall j :: 0 <= j < i ==> !Raises(CaaFrom(group[j]))
    ensures DecodeCaa(group).Success? ==> DecodeCaa(group).value == Kept(Each(group, CaaFrom))
    ensures DecodeCaa(group).Success? ==> |DecodeCaa(group).value| == |group| - Malformed(group)
    ensures DecodeCaa(group).Success? ==> forall k :: 0 <= k < |DecodeCaa(group).value| ==> ' ' !in DecodeCaa(group).value[k].tag
  {
    DecodeCaaBasics(group);
    var os := Each(group, CaaFrom);
    EachAt(group, CaaFrom);
    GatherKept(os);
    if DecodeCaa(group).Failure? {
      var i :| FirstRaise(os, i) && os[i].value.error == DecodeCaa(group).error;
      assert CaaFrom(group[i]) == Some(Failure(DecodeCaa(group).error));
    }
  }

  // ---------------------------------------------------------------------
  // MX

  /** One MX record: the `priority` field is the preference, the data the
      exchange, dot-normalised; an empty exchange raises `IndexError`. */
  function MxFrom(r: ProviderRecord): Option<Result<MxValue, Error>> {
    var e := AppendDot(r.data);
    if e.None? then Some(Failure(IndexError)) else Some(Success(MxValue(r.priority, e.value)))
  }

  /** `_data_for_MX`'s values. */
  function DecodeMx(group: seq<ProviderRecord>): Result<seq<MxValue>, Error> {
    Gather(Each(group, MxFrom))
  }

  /** `_data_for_MX` raises `IndexError` exactly when some record's data is
      empty; otherwise it gives one value per record, in order: the
      priority field as preference and the data, dot-normalised, as
      exchange. */
  lemma DecodeMxSpec(group: seq<ProviderRecord>)
    ensures DecodeMx(group).Failure? <==> exists i :: 0 <= i < |group| && group[i].data == ""
    ensures DecodeMx(group).Failure? ==> DecodeMx(group).error == IndexError
    ensures DecodeMx(group).Success? ==> |DecodeMx(group).value| == |group|
    ensures DecodeMx(group).Success? ==> forall k :: 0 <= k < |group| ==>
      && DecodeMx(group).value[k].preference == group[k].priority
      && FullyQualified(DecodeMx(group).value[k].exchange)
      && DecodeMx(group).value[k].exchange == (if FullyQualified(group[k].data) then group[k].data else group[k].data + ".")
  {
    var os := Each(group, MxFrom);
    EachAt(group, MxFrom);
    GatherSpec(os);
    GatherEach(os);
    if DecodeMx(group).Failure? {
      var i :| 0 <= i < |os| && os[i] == Some(Failure(DecodeMx(group).error));
    }
  }

  // ---------------------------------------------------------------------
  // NS

  /** One NS record: the data, dot-normalised; an empty one raises
      `IndexError`. */
  function NsFrom(r: ProviderRecord): Option<Result<string, Error>> {
    var e := AppendDot(r.data);
    if e.None? then Some(Failure(IndexError)) else Some(Success(e.value))
  }

  /** `_data_for_NS`'s values. */
  function DecodeNs(group: seq<ProviderRecord>): Result<seq<string>, Error> {
    Gather(Each(group, NsFrom))
  }

  /** `_data_for_NS` raises `IndexError` exactly when some record's data is
      empty; otherwise it gives each record's data, dot-normalised, in
      order. */
  lemma DecodeNsSpec(group: seq<ProviderRecord>)
    ensures DecodeNs(group).Failure? <==> exists i :: 0 <= i < |group| && group[i].data == ""
    ensures DecodeNs(group).Failure? ==> DecodeNs(group).error == IndexError
    ensures DecodeNs(group).Success? ==> |DecodeNs(group).value| == |group|
    ensures DecodeNs(group).Success? ==> forall k :: 0 <= k < |group| ==>
      && FullyQualified(DecodeNs(group).value[k])
      && DecodeNs(group).value[k] == (if FullyQualified(group[k].data) then group[k].data else group[k].data + ".")
  {
    var os := Each(group, NsFrom);
    EachAt(group, NsFrom);
    GatherSpec(os);
    GatherEach(os);
    if DecodeNs(group).Failure? {
      var i :| 0 <= i < |os| && os[i] == Some(Failure(DecodeNs(group).error));
    }
  }

  // ---------------------------------------------------------------------
  // SRV

  /** One SRV record: `weight port target` split on the first two spaces,
      the port read with `int()`, the target dot-normalised, then the weight
      read with `int()` (the order the dict literal evaluates them in); the
      priority is the record's own field. `None` when the split gives fewer
      than three parts. */
  function SrvFrom(r: ProviderRecord): Option<Result<SrvValue, Error>> {
    var parts := Split3(r.data);
    if parts.None? then None
    else
      var (weight, port, target) := parts.value;
      var p := ParseInt(port);
      if p.None? then Some(Failure(ValueError))
      else
        var t := AppendDot(target);
        if t.None? then Some(Failure(IndexError))
        else
          var w := ParseInt(weight);
          if w.None? then Some(Failure(ValueError))
          else Some(Success(SrvValue(r.priority, w.value, p.value, t.value)))
  }

  /** An SRV record is dropped exactly when its data holds fewer than two
      spaces; it raises only `ValueError` or `IndexError`; a kept value has
      the record's priority and a fully qualified target. */
  lemma SrvFromShape(r: ProviderRecord)
    ensures SrvFrom(r).None? <==> AtMostOneSpace(r.data)
    ensures Raises(SrvFrom(r)) ==> SrvFrom(r).value.error == ValueError || SrvFrom(r).value.error == IndexError
    ensures SrvFrom(r).Some? && SrvFrom(r).value.Success? ==>
      SrvFrom(r).value.value.priority == r.priority && FullyQualified(SrvFrom(r).value.value.target)
  {
    Split3Spec(r.data);
  }

  /** An SRV record is dropped exactly when its data holds fewer than two
      spaces. It raises exactly when it splits but its port is not an
      integer (`ValueError`), its target is empty (`IndexError`) or its
      weight is not an integer (`ValueError`), the first of these, in that
      order, deciding the error. A kept value is the first field read as
      the weight, the second as the port, the rest dot-normalised as the
      target, and the record's own priority. */
  lemma SrvFromSpec(r: ProviderRecord)
    ensures SrvFrom(r).None? <==> AtMostOneSpace(r.data)
    ensures Raises(SrvFrom(r)) <==>
      && Split3(r.data).Some?
      && (ParseInt(Split3(r.data).value.1).None? || Split3(r.data).value.2 == "" || ParseInt(Split3(r.data).value.0).None?)
    ensures Raises(SrvFrom(r)) ==>
      && Split3(r.data).Some?
      && SrvFrom(r).value.error ==
           if ParseInt(Split3(r.data).value.1).None? then ValueError
           else if Split3(r.data).value.2 == "" then IndexError
           else ValueError
    ensures SrvFrom(r).Some? && SrvFrom(r).value.Success? ==>
      var v := SrvFrom(r).value.value;
      && Split3(r.data).Some?
      && ParseInt(Split3(r.data).value.0) == Some(v.weight)
      && ParseInt(Split3(r.data).value.1) == Some(v.port)
      && AppendDot(Split3(r.data).value.2) == Some(v.target)
      && v.priority == r.priority
      && FullyQualified(v.target)
  {
    SrvFromShape(r);
  }

  /** The data `_params_for_SRV` writes is read back field by field: the
      weight, the port, and the (non-empty) target dot-normalised, with the
      record's own priority. */
  lemma SrvFromFields(r: ProviderRecord, weight: int, port: int, target: string)
    requires target != ""
    requires r.data == IntToString(weight) + " " + IntToString(port) + " " + target
    ensures SrvFrom(r) == Some(Success(SrvValue(r.priority, weight, port, AppendDot(target).value)))
  {
    Split3Of(IntToString(weight), IntToString(port), target);
    ParseIntToString(weight);
    ParseIntToString(port);
  }

  /** `_data_for_SRV`'s values. */
  function DecodeSrv(group: seq<ProviderRecord>): Result<seq<SrvValue>, Error> {
    Gather(Each(group, SrvFrom))
  }

  /** The counting half of `DecodeSrvSpec`. */
  lemma DecodeSrvBasics(group: seq<ProviderRecord>)
    ensures DecodeSrv(group).Failure? <==> exists i {:trigger SrvFrom(group[i])} :: 0 <= i < |group| && Raises(SrvFrom(group[i]))
    ensures DecodeSrv(group).Failure? ==> DecodeSrv(group).error == IndexError || DecodeSrv(group).error == ValueError
    ensures DecodeSrv(group).Success? ==> |DecodeSrv(group).value| == |group| - Malformed(group)
    ensures DecodeSrv(group).Success? ==> forall k :: 0 <= k < |DecodeSrv(group).value| ==> FullyQualified(DecodeSrv(group).value[k].target)
  {
    var os := Each(group, SrvFrom);
    EachAt(group, SrvFrom);
    GatherSpec(os);
    forall i | 0 <= i < |group|
      ensures os[i].None? <==> AtMostOneSpace(group[i].data)
      ensures Raises(os[i]) ==> os[i].value.error == ValueError || os[i].value.error == IndexError
      ensures os[i].Some? && os[i].value.Success? ==> FullyQualified(os[i].value.value.target)
    {
      SrvFromShape(group[i]);
    }
    SkippedMalformed(os, group);
    var r := Gather(os);
    if r.Failure? {
      var i :| 0 <= i < |os| && os[i] == Some(Failure(r.error));
    } else {
      forall k | 0 <= k < |r.value|
        ensures FullyQualified(r.value[k].target)
      {
        assert r.value[k] in r.value;
        var i :| 0 <= i < |os| && os[i] == Some(Success(r.value[k]));
      }
    }
  }

  /** `_data_for_SRV` raises exactly when some kept record raises, with the
      first such record's error, `ValueError` or `IndexError`; otherwise it
      keeps the values of all but the malformed records, in record order,
      each with a fully qualified target. */
  lemma DecodeSrvSpec(group: seq<ProviderRecord>)
    ensures DecodeSrv(group).Failure? <==> exists i {:trigger SrvFrom(group[i])} :: 0 <= i < |group| && Raises(SrvFrom(group[i]))
    ensures DecodeSrv(group).Failure? ==> DecodeSrv(group).error == IndexError || DecodeSrv(group).error == ValueError
    ensures DecodeSrv(group).Failure? ==>
      exists i {:trigger SrvFrom(group[i])} :: 0 <= i < |group| && SrvFrom(group[i]) == Some(Failure(DecodeSrv(group).error)) &&
        forall j :: 0 <= j < i ==> !Raises(SrvFrom(group[j]))
    ensures DecodeSrv(group).Success? ==> DecodeSrv(group).value == Kept(Each(group, SrvFrom))
    ensures DecodeSrv(group).Success? ==> |DecodeSrv(group).value| == |group| - Malformed(group)
    ensures DecodeSrv(group).Success? ==> forall k :: 0 <= k < |DecodeSrv(group).value| ==> FullyQualified(DecodeSrv(group).value[k].target)
  {
    DecodeSrvBasics(group);
    var os := Each(group, SrvFrom);
    EachAt(group, SrvFrom);
    GatherKept(os);
    if DecodeSrv(group).Failure? {
      var i :| FirstRaise(os, i) && os[i].value.error == DecodeSrv(group).error;
      assert SrvFrom(group[i]) == Some(Failure(DecodeSrv(group).error));
    }
  }

  // ---------------------------------------------------------------------
  // Dispatch on the type

  /** The values `_data_for_<type>` reads from one group, dispatched on the
      type. CNAME reads only the first record; the A, AAAA and TXT decoder
      cannot fail. */
  function ValuesFor(t: RType, group: seq<ProviderRecord>): (r: Result<RData, Error>)
    requires |group| > 0
    ensures PlainValues(t) ==> r.Success?
  {
    match t
    case A => Success(AValues(EscapedValues(group)))
    case AAAA => Success(AaaaValues(EscapedValues(group)))
    case TXT => Success(TxtValues(EscapedValues(group)))
    case CNAME =>
      var v := AppendDot(group[0].data);
      if v.None? then Failure(IndexError) else Success(CnameValue(v.value))
    case CAA =>
      var cs := DecodeCaa(group);
      if cs.Failure? then Failure(cs.error) else Success(CaaValues(cs.value))
    case MX =>
      var ms := DecodeMx(group);
      if ms.Failure? then Failure(ms.error) else Success(MxValues(ms.value))
    case NS =>
      var ns := DecodeNs(group);
      if ns.Failure? then Failure(ns.error) else Success(NsValues(ns.value))
    case SRV =>
      var ss := DecodeSrv(group);
      if ss.Failure? then Failure(ss.error) else Success(SrvValues(ss.value))
  }

  /** What `ValuesFor` reads has the group's type, one value per record
      (less the malformed records for CAA and SRV, exactly one for CNAME),
      and the only errors raised are `IndexError` and `ValueError`. */
  lemma ValuesForShape(t: RType, group: seq<ProviderRecord>)
    requires |group| > 0
    ensures ValuesFor(t, group).Success? ==> TypeOf(ValuesFor(t, group).value) == t
    ensures ValuesFor(t, group).Failure? ==> ValuesFor(t, group).error == IndexError || ValuesFor(t, group).error == ValueError
    ensures ValuesFor(t, group).Success? && (t == CAA || t == SRV) ==>
      ValueCount(ValuesFor(t, group).value) == |group| - Malformed(group)
    ensures ValuesFor(t, group).Success? && (PlainValues(t) || t == MX || t == NS) ==>
      ValueCount(ValuesFor(t, group).value) == |group|
  {
    match t
    case A => PlainShape(t, group);
    case AAAA => PlainShape(t, group);
    case TXT => PlainShape(t, group);
    case CNAME => CnameShape(group);
    case CAA => CaaShape(group);
    case MX => MxShape(group);
    case NS => NsShape(group);
    case SRV => SrvShape(group);
  }

  /** `ValuesForShape` for A, AAAA and TXT. */
  lemma PlainShape(t: RType, group: seq<ProviderRecord>)
    requires PlainValues(t) && |group| > 0
    ensures ValuesFor(t, group).Success? ==> TypeOf(ValuesFor(t, group).value) == t
    ensures ValuesFor(t, group).Success? ==> ValueCount(ValuesFor(t, group).value) == |group|
  {
    EscapedValuesSpec(group);
  }

  /** `ValuesForShape` for CNAME. */
  lemma CnameShape(group: seq<ProviderRecord>)
    requires |group| > 0
    ensures ValuesFor(CNAME, group).Success? ==> TypeOf(ValuesFor(CNAME, group).value) == CNAME
    ensures ValuesFor(CNAME, group).Success? ==> ValueCount(ValuesFor(CNAME, group).value) == 1
    ensures ValuesFor(CNAME, group).Failure? ==> ValuesFor(CNAME, group).error == IndexError
  {
  }

  /** `ValuesForShape` for CAA. */
  lemma CaaShape(group: seq<ProviderRecord>)
    requires |group| > 0
    ensures ValuesFor(CAA, group).Success? ==> TypeOf(ValuesFor(CAA, group).value) == CAA
    ensures ValuesFor(CAA, group).Success? ==> ValueCount(ValuesFor(CAA, group).value) == |group| - Malformed(group)
    ensures ValuesFor(CAA, group).Failure? ==> ValuesFor(CAA, group).error == ValueError
  {
    CaaShapeCount(group);
    CaaShapeError(group);
  }

  lemma CaaShapeCount(group: seq<ProviderRecord>)
    requires |group| > 0
    ensures ValuesFor(CAA, group).Success? ==> ValueCount(ValuesFor(CAA, group).value) == |group| - Malformed(group)
  {
    CaaDecodedCount(group);
  }

  lemma CaaShapeError(group: seq<ProviderRecord>)
    requires |group| > 0
    ensures ValuesFor(CAA, group).Failure? ==> ValuesFor(CAA, group).error == ValueError
  {
    DecodeCaaBasics(group);
  }

  lemma CaaDecodedCount(group: seq<ProviderRecord>)
    ensures DecodeCaa(group).Success? ==> ValueCount(CaaValues(DecodeCaa(group).value)) == |group| - Malformed(group)
  {
    CaaValuesCount(group);
    DecodeCaaBasics(group);
  }

  lemma CaaValuesCount(group: seq<ProviderRecord>)
    ensures DecodeCaa(group).Success? ==> ValueCount(CaaValues(DecodeCaa(group).value)) == |DecodeCaa(group).value|
  {
  }

  /** `ValuesForShape` for MX. */
  lemma MxShape(group: seq<ProviderRecord>)
    requires |group| > 0
    ensures ValuesFor(MX, group).Success? ==> TypeOf(ValuesFor(MX, group).value) == MX
    ensures ValuesFor(MX, group).Success? ==> ValueCount(ValuesFor(MX, group).value) == |group|
    ensures ValuesFor(MX, group).Failure? ==> ValuesFor(MX, group).error == IndexError
  {
    DecodeMxSpec(group);
  }

  /** `ValuesForShape` for NS. */
  lemma NsShape(group: seq<ProviderRecord>)
    requires |group| > 0
    ensures ValuesFor(NS, group).Success? ==> TypeOf(ValuesFor(NS, group).value) == NS
    ensures ValuesFor(NS, group).Success? ==> ValueCount(ValuesFor(NS, group).value) == |group|
    ensures ValuesFor(NS, group).Failure? ==> ValuesFor(NS, group).error == IndexError
  {
    DecodeNsSpec(group);
  }

  /** `ValuesForShape` for SRV. */
  lemma SrvShape(group: seq<ProviderRecord>)
    requires |group| > 0
    ensures ValuesFor(SRV, group).Success? ==> TypeOf(ValuesFor(SRV, group).value) == SRV
    ensures ValuesFor(SRV, group).Success? ==> ValueCount(ValuesFor(SRV, group).value) == |group| - Malformed(group)
    ensures ValuesFor(SRV, group).Failure? ==> ValuesFor(SRV, group).error == IndexError || ValuesFor(SRV, group).error == ValueError
  {
    SrvShapeType(group);
    SrvShapeCount(group);
    SrvShapeError(group);
  }

  // The three parts of `SrvShape` are proved apart: together they leave the
  // solver too many ways to unfold the SRV reader.

  lemma SrvShapeType(group: seq<ProviderRecord>)
    requires |group| > 0
    ensures ValuesFor(SRV, group).Success? ==> TypeOf(ValuesFor(SRV, group).value) == SRV
  {
  }

  lemma SrvShapeCount(group: seq<ProviderRecord>)
    requires |group| > 0
    ensures ValuesFor(SRV, group).Success? ==> ValueCount(ValuesFor(SRV, group).value) == |group| - Malformed(group)
  {
    SrvDecodedCount(group);
  }

  lemma SrvShapeError(group: seq<ProviderRecord>)
    requires |group| > 0
    ensures ValuesFor(SRV, group).Failure? ==> ValuesFor(SRV, group).error == IndexError || ValuesFor(SRV, group).error == ValueError
  {
    DecodeSrvBasics(group);
  }

  lemma SrvDecodedCount(group: seq<ProviderRecord>)
    ensures DecodeSrv(group).Success? ==> ValueCount(SrvValues(DecodeSrv(group).value)) == |group| - Malformed(group)
  {
    SrvValuesCount(group);
    DecodeSrvBasics(group);
  }

  lemma SrvValuesCount(group: seq<ProviderRecord>)
    ensures DecodeSrv(group).Success? ==> ValueCount(SrvValues(DecodeSrv(group).value)) == |DecodeSrv(group).value|
  {
  }

  /** `_data_for_<type>` followed by `Record.new`: the record `populate`
      builds from one group, named after the group, with the first record's
      TTL. */
  function DataFor(name: string, t: RType, group: seq<ProviderRecord>): Result<Record, Error>
    requires |group| > 0
  {
    var d := ValuesFor(t, group);
    if d.Failure? then Failure(d.error) else Success(Record(name, RecordTtl(group[0]), d.value))
  }

  /** The record read from a group is named after the group, of the group's
      type, with the first record's TTL; the only errors are `IndexError`
      and `ValueError`, and the A, AAAA and TXT readers never raise. */
  lemma DataForSpec(name: string, t: RType, group: seq<ProviderRecord>)
    requires |group| > 0
    ensures DataFor(name, t, group).Success? ==>
      var r := DataFor(name, t, group).value;
      r.name == name && TypeOf(r.data) == t && r.ttl == RecordTtl(group[0])
    ensures DataFor(name, t, group).Failure? ==> DataFor(name, t, group).error == IndexError || DataFor(name, t, group).error == ValueError
    ensures PlainValues(t) ==> DataFor(name, t, group).Success?
  {
    ValuesForShape(t, group);
  }
}

=== FILE: encode.dfy ===
/** The write path's per-type encoders, `_params_for_*`: one octoDNS record
    becomes the parameter sets `zone_record_create` is called with, one per
    value. */
module Encode {
  import opened Wrappers
  import opened Text
  import opened Records
  import opened Client

  /** One parameter set a `_params_for_*` generator yields. Only the MX and
      SRV encoders put a `priority` key in it. */
  datatype Params = Params(name: string, rtype: string, data: string, ttl: int, priority: Option<int>)

  /** A CAA value packed as `flags tag "value"`. */
  function CaaData(c: CaaValue): string {
    IntToString(c.flags) + " " + c.tag + " " + Quoted(c.value)
  }

  /** `"v"`. */
  function Quoted(v: string): string {
    "\"" + v + "\""
  }

  /** Read back with `split(' ', 2)`, a packed CAA value gives its three
      fields, the value still quoted, provided the tag holds no space. */
  lemma CaaDataSplits(c: CaaValue)
    requires ' ' !in c.tag
    ensures Split3(CaaData(c)) == Some((IntToString(c.flags), c.tag, Quoted(c.value)))
  {
    Split3Of(IntToString(c.flags), c.tag, Quoted(c.value));
  }

  /** An SRV value packed as `weight port target`, the target's trailing
      dot removed. */
  function SrvData(v: SrvValue): string {
    IntToString(v.weight) + " " + IntToString(v.port) + " " + StripTrailingDot(v.target)
  }

  /** Read back with `split(' ', 2)`, a packed SRV value gives its three
      fields. */
  lemma SrvDataSplits(v: SrvValue)
    ensures Split3(SrvData(v)) == Some((IntToString(v.weight), IntToString(v.port), StripTrailingDot(v.target)))
  {
    Split3Of(IntToString(v.weight), IntToString(v.port), StripTrailingDot(v.target));
  }

  /** `_params_for_multiple` (A, AAAA, NS, TXT): one set per value, with
      `\;` unescaped back to `;`. */
  function MultipleParams(name: string, rtype: string, ttl: int, vs: seq<string>): (ps: seq<Params>)
    ensures |ps| == |vs|
    ensures forall i :: 0 <= i < |vs| ==> ps[i].data == Unescape(vs[i]) && ps[i].priority.None?
  {
    seq(|vs|, i requires 0 <= i < |vs| => Params(name, rtype, Unescape(vs[i]), ttl, None))
  }

  /** `_params_for_<type>`, dispatched on the record's type: how many sets it
      yields, what they all carry over from the record, and which carry a
      priority. */
  function ParamsFor(r: Record): (ps: seq<Params>)
    ensures |ps| == ValueCount(r.data)
    ensures forall i :: 0 <= i < |ps| ==>
      && ps[i].name == r.name
      && ps[i].rtype == TypeName(TypeOf(r.data))
      && ps[i].ttl == r.ttl
      && (ps[i].priority.Some? <==> Prioritised(TypeOf(r.data)))
    ensures r.data.AValues? || r.data.AaaaValues? || r.data.NsValues? || r.data.TxtValues? ==>
      forall i :: 0 <= i < |ps| ==> ps[i].data == Unescape(r.data.values[i])
    ensures r.data.CaaValues? ==> forall i :: 0 <= i < |ps| ==> ps[i].data == CaaData(r.data.caas[i])
    ensures r.data.CnameValue? ==> ps[0].data == r.data.value
    ensures r.data.MxValues? ==> forall i :: 0 <= i < |ps| ==>
      ps[i].data == r.data.mxs[i].exchange && ps[i].priority == Some(r.data.mxs[i].preference)
    ensures r.data.SrvValues? ==> forall i :: 0 <= i < |ps| ==>
      ps[i].data == SrvData(r.data.srvs[i]) && ps[i].priority == Some(r.data.srvs[i].priority)
  {
    var tn := TypeName(TypeOf(r.data));
    match r.data
    case AValues(vs) => MultipleParams(r.name, tn, r.ttl, vs)
    case AaaaValues(vs) => MultipleParams(r.name, tn, r.ttl, vs)
    case NsValues(vs) => MultipleParams(r.name, tn, r.ttl, vs)
    case TxtValues(vs) => MultipleParams(r.name, tn, r.ttl, vs)
    case CaaValues(cs) =>
      seq(|cs|, i requires 0 <= i < |cs| => Params(r.name, tn, CaaData(cs[i]), r.ttl, None))
    case CnameValue(v) => [Params(r.name, tn, v, r.ttl, None)]
    case MxValues(ms) =>
      seq(|ms|, i requires 0 <= i < |ms| => Params(r.name, tn, ms[i].exchange, r.ttl, Some(ms[i].preference)))
    case SrvValues(ss) =>
      seq(|ss|, i requires 0 <= i < |ss| => Params(r.name, tn, SrvData(ss[i]), r.ttl, Some(ss[i].priority)))
  }

  /** The body `zone_record_create` posts for one parameter set, as
      `_apply_Create` calls it: the priority is passed only when the set
      has one. */
  function Post(p: Params): (b: Payload)
    ensures b.name != "" && ReadName(b.name) == (if p.name == "@" then "" else p.name)
    ensures b.rtype == p.rtype && b.data == p.data
    ensures b.ttl == (if p.ttl != 0 then Some(p.ttl) else None)
    ensures b.priority.Some? <==> p.priority.Some? && p.priority.value != 0 && (p.rtype == "MX" || p.rtype == "SRV")
    ensures b.priority.Some? ==> b.priority == p.priority
  {
    BuildPayload(p.name, p.rtype, p.data, p.ttl, p.priority)
  }
}

=== FILE: populate.dfy ===
/** `populate`: the listed records grouped by name and then by type, each
    group decoded into one octoDNS record, and the answer whether the zone
    exists. */
module Populate {
  import opened Wrappers
  import opened Records
  import opened Client
  import opened Cache
  import opened Decode

  /** The records of one type under one name, in listing order. */
  datatype TypeGroup = TypeGroup(rtype: RType, members: seq<ProviderRecord>)

  /** The groups under one name, types in order of first appearance. */
  datatype NameGroup = NameGroup(name: string, types: seq<TypeGroup>)

  /** `values[name][type].append(record)` on the inner dictionary. */
  function AddToTypes(ts: seq<TypeGroup>, t: RType, rec: ProviderRecord): (out: seq<TypeGroup>)
    ensures |out| == |ts| || |out| == |ts| + 1
  {
    if |ts| == 0 then [TypeGroup(t, [rec])]
    else if ts[0].rtype == t then [ts[0].(members := ts[0].members + [rec])] + ts[1..]
    else [ts[0]] + AddToTypes(ts[1..], t, rec)
  }

  /** `values[name][type].append(record)` on the outer dictionary. */
  function AddToNames(gs: seq<NameGroup>, t: RType, rec: ProviderRecord): (out: seq<NameGroup>)
    ensures |out| == |gs| || |out| == |gs| + 1
  {
    if |gs| == 0 then [NameGroup(rec.name, [TypeGroup(t, [rec])])]
    else if gs[0].name == rec.name then [gs[0].(types := AddToTypes(gs[0].types, t, rec))] + gs[1..]
    else [gs[0]] + AddToNames(gs[1..], t, rec)
  }

  /** `populate`'s first loop over the listing: records of a type outside
      `SUPPORTS` are skipped, every other one is appended to its group. */
  function GroupRecords(rs: seq<ProviderRecord>): seq<NameGroup> {
    if |rs| == 0 then []
    else
      var gs := GroupRecords(rs[..|rs| - 1]);
      var last := rs[|rs| - 1];
      var t := ParseType(last.rtype);
      if t.None? then gs else AddToNames(gs, t.value, last)
  }

  /** The members of type `t` in one name's groups; none when absent. */
  function TypeMembers(ts: seq<TypeGroup>, t: RType): seq<ProviderRecord> {
    if |ts| == 0 then []
    else if ts[0].rtype == t then ts[0].members
    else TypeMembers(ts[1..], t)
  }

  /** `values[n][t]`: the group for one name and type; none when absent. */
  function Members(gs: seq<NameGroup>, n: string, t: RType): seq<ProviderRecord> {
    if |gs| == 0 then []
    else if gs[0].name == n then TypeMembers(gs[0].types, t)
    else Members(gs[1..], n, t)
  }

  /** The reference for a group: the listed records with this name and this
      type tag, in listing order. */
  function Matching(rs: seq<ProviderRecord>, n: string, t: RType): (ms: seq<ProviderRecord>)
    ensures |ms| <= |rs|
    ensures forall i :: 0 <= i < |ms| ==> ms[i] in rs && ms[i].name == n && ms[i].rtype == TypeName(t)
  {
    if |rs| == 0 then []
    else
      var last := rs[|rs| - 1];
      Matching(rs[..|rs| - 1], n, t) + (if last.name == n && last.rtype == TypeName(t) then [last] else [])
  }

  /** Appending to the inner dictionary extends exactly one list. */
  lemma {:induction false} AddToTypesMembers(ts: seq<TypeGroup>, t: RType, rec: ProviderRecord, u: RType)
    ensures TypeMembers(AddToTypes(ts, t, rec), u) == TypeMembers(ts, u) + (if u == t then [rec] else [])
  {
    if |ts| > 0 && ts[0].rtype != t {
      AddToTypesMembers(ts[1..], t, rec, u);
    }
  }

  /** Appending to the outer dictionary extends exactly one list. */
  lemma {:induction false} AddToNamesMembers(gs: seq<NameGroup>, t: RType, rec: ProviderRecord, n: string, u: RType)
    ensures Members(AddToNames(gs, t, rec), n, u) == Members(gs, n, u) + (if n == rec.name && u == t then [rec] else [])
  {
    var out := AddToNames(gs, t, rec);
    if |gs| == 0 {
      assert out[1..] == [];
      assert TypeMembers(out[0].types, u) == if u == t then [rec] else [];
    } else {
      if gs[0].name == rec.name {
        AddToTypesMembers(gs[0].types, t, rec, u);
        assert out[1..] == gs[1..];
      } else {
        AddToNamesMembers(gs[1..], t, rec, n, u);
        assert out[1..] == AddToNames(gs[1..], t, rec);
      }
    }
  }

  /** Every group is exactly the listed records of its name and type, in
      listing order, and a type outside `SUPPORTS` has no group. */
  lemma {:induction false} GroupingLaw(rs: seq<ProviderRecord>, n: string, t: RType)
    ensures Members(GroupRecords(rs), n, t) == Matching(rs, n, t)
  {
    if |rs| > 0 {
      var last := rs[|rs| - 1];
      GroupingLaw(rs[..|rs| - 1], n, t);
      var p := ParseType(last.rtype);
      if p.Some? {
        AddToNamesMembers(GroupRecords(rs[..|rs| - 1]), p.value, last, n, t);
        ParseTypeName(t);
      }
    }
  }

  /** One group of the flattened dictionary: a name, a type and its
      records. */
  datatype Group = Group(name: string, rtype: RType, members: seq<ProviderRecord>)

  /** The inner dictionary's groups, in order, under one name. */
  function FlattenTypes(name: string, ts: seq<TypeGroup>): (out: seq<Group>)
    ensures |out| == |ts|
    ensures forall i :: 0 <= i < |ts| ==> out[i] == Group(name, ts[i].rtype, ts[i].members)
  {
    seq(|ts|, i requires 0 <= i < |ts| => Group(name, ts[i].rtype, ts[i].members))
  }

  /** `populate`'s second loop order: names in order of first appearance,
      under each name its types in order of first appearance. */
  function Flatten(gs: seq<NameGroup>): seq<Group> {
    if |gs| == 0 then [] else FlattenTypes(gs[0].name, gs[0].types) + Flatten(gs[1..])
  }

  /** Keys are unique and no group is empty: what the dictionaries
      guarantee. */
  predicate TypesWellFormed(ts: seq<TypeGroup>) {
    && (forall i, j :: 0 <= i < j < |ts| ==> ts[i].rtype != ts[j].rtype)
    && (forall i :: 0 <= i < |ts| ==> |ts[i].members| > 0)
  }

  predicate WellFormed(gs: seq<NameGroup>) {
    && (forall i, j :: 0 <= i < j < |gs| ==> gs[i].name != gs[j].name)
    && (forall i :: 0 <= i < |gs| ==> TypesWellFormed(gs[i].types))
  }

  /** Appending to the inner dictionary adds no type but `t`. */
  lemma {:induction false} AddToTypesKeys(ts: seq<TypeGroup>, t: RType, rec: ProviderRecord)
    ensures forall i :: 0 <= i < |AddToTypes(ts, t, rec)| ==>
      AddToTypes(ts, t, rec)[i].rtype == t || exists j :: 0 <= j < |ts| && ts[j].rtype == AddToTypes(ts, t, rec)[i].rtype
  {
    if |ts| > 0 && ts[0].rtype != t {
      AddToTypesKeys(ts[1..], t, rec);
      var out := AddToTypes(ts, t, rec);
      assert out == [ts[0]] + AddToTypes(ts[1..], t, rec);
      forall i | 0 <= i < |out|
        ensures out[i].rtype == t || exists j :: 0 <= j < |ts| && ts[j].rtype == out[i].rtype
      {
        if i > 0 && out[i].rtype != t {
          assert out[i] == AddToTypes(ts[1..], t, rec)[i - 1];
          var j :| 0 <= j < |ts[1..]| && ts[1..][j].rtype == out[i].rtype;
          assert ts[j + 1].rtype == out[i].rtype;
        }
      }
    }
  }

  /** Appending to the inner dictionary keeps its types unique and its
      lists non-empty. */
  lemma {:induction false} AddToTypesWellFormed(ts: seq<TypeGroup>, t: RType, rec: ProviderRecord)
    requires TypesWellFormed(ts)
    ensures TypesWellFormed(AddToTypes(ts, t, rec))
  {
    if |ts| > 0 && ts[0].rtype != t {
      AddToTypesWellFormed(ts[1..], t, rec);
      AddToTypesKeys(ts[1..], t, rec);
      var out := AddToTypes(ts, t, rec);
      assert out == [ts[0]] + AddToTypes(ts[1..], t, rec);
      forall i | 1 <= i < |out|
        ensures out[i].rtype != ts[0].rtype
      {
        assert out[i] == AddToTypes(ts[1..], t, rec)[i - 1];
      }
    }
  }

  /** Appending to the outer dictionary adds no name but the record's. */
  lemma {:induction false} AddToNamesKeys(gs: seq<NameGroup>, t: RType, rec: ProviderRecord)
    ensures forall i :: 0 <= i < |AddToNames(gs, t, rec)| ==>
      AddToNames(gs, t, rec)[i].name == rec.name || exists j :: 0 <= j < |gs| && gs[j].name == AddToNames(gs, t, rec)[i].name
  {
    if |gs| > 0 && gs[0].name != rec.name {
      AddToNamesKeys(gs[1..], t, rec);
      var out := AddToNames(gs, t, rec);
      assert out == [gs[0]] + AddToNames(gs[1..], t, rec);
      forall i | 0 <= i < |out|
        ensures out[i].name == rec.name || exists j :: 0 <= j < |gs| && gs[j].name == out[i].name
      {
        if i > 0 && out[i].name != rec.name {
          assert out[i] == AddToNames(gs[1..], t, rec)[i - 1];
          var j :| 0 <= j < |gs[1..]| && gs[1..][j].name == out[i].name;
          assert gs[j + 1].name == out[i].name;
        }
      }
    }
  }

  /** Appending to the outer dictionary keeps its names unique and every
      inner dictionary well formed. */
  lemma {:induction false} AddToNamesWellFormed(gs: seq<NameGroup>, t: RType, rec: ProviderRecord)
    requires WellFormed(gs)
    ensures WellFormed(AddToNames(gs, t, rec))
  {
    if |gs| > 0 {
      if gs[0].name == rec.name {
        AddToTypesWellFormed(gs[0].types, t, rec);
      } else {
        AddToNamesWellFormed(gs[1..], t, rec);
        AddToNamesKeys(gs[1..], t, rec);
        var out := AddToNames(gs, t, rec);
        assert out == [gs[0]] + AddToNames(gs[1..], t, rec);
        forall i | 1 <= i < |out|
          ensures out[i].name != gs[0].name
        {
          assert out[i] == AddToNames(gs[1..], t, rec)[i - 1];
        }
      }
    }
  }

  /** The grouping keeps its keys unique and its groups non-empty. */
  lemma {:induction false} GroupRecordsWellFormed(rs: seq<ProviderRecord>)
    ensures WellFormed(GroupRecords(rs))
  {
    if |rs| > 0 {
      GroupRecordsWellFormed(rs[..|rs| - 1]);
      var p := ParseType(rs[|rs| - 1].rtype);
      if p.Some? {
        AddToNamesWellFormed(GroupRecords(rs[..|rs| - 1]), p.value, rs[|rs| - 1]);
      }
    }
  }

  /** Every flattened group is named after one of the dictionary's names. */
  lemma {:induction false} FlattenNames(gs: seq<NameGroup>)
    ensures forall k :: 0 <= k < |Flatten(gs)| ==> exists i :: 0 <= i < |gs| && gs[i].name == Flatten(gs)[k].name
  {
    if |gs| > 0 {
      FlattenNames(gs[1..]);
      var head := FlattenTypes(gs[0].name, gs[0].types);
      var tail := Flatten(gs[1..]);
      var f := Flatten(gs);
      assert f == head + tail;
      forall k | 0 <= k < |f|
        ensures exists i :: 0 <= i < |gs| && gs[i].name == f[k].name
      {
        if k < |head| {
          assert gs[0].name == f[k].name;
        } else {
          assert f[k] == tail[k - |head|];
          var i :| 0 <= i < |gs[1..]| && gs[1..][i].name == tail[k - |head|].name;
          assert gs[i + 1].name == f[k].name;
        }
      }
    } else {
      assert Flatten(gs) == [];
    }
  }

  /** In a well-formed dictionary, each flattened group holds what a lookup
      of its key finds. */
  lemma {:induction false} FlattenMembers(gs: seq<NameGroup>)
    requires WellFormed(gs)
    ensures forall k :: 0 <= k < |Flatten(gs)| ==>
      && |Flatten(gs)[k].members| > 0
      && Flatten(gs)[k].members == Members(gs, Flatten(gs)[k].name, Flatten(gs)[k].rtype)
  {
    if |gs| > 0 {
      FlattenMembers(gs[1..]);
      FlattenNames(gs[1..]);
      var head := FlattenTypes(gs[0].name, gs[0].types);
      var tail := Flatten(gs[1..]);
      var f := Flatten(gs);
      assert f == head + tail;
      forall k | 0 <= k < |f|
        ensures |f[k].members| > 0 && f[k].members == Members(gs, f[k].name, f[k].rtype)
      {
        if k < |head| {
          TypesMembers(gs[0].types, k);
        } else {
          assert f[k] == tail[k - |head|];
          var i :| 0 <= i < |gs[1..]| && gs[1..][i].name == tail[k - |head|].name;
          assert gs[i + 1].name != gs[0].name;
        }
      }
    }
  }

  /** In a well-formed dictionary, no two flattened groups share a key. */
  lemma {:induction false} FlattenKeysDistinct(gs: seq<NameGroup>)
    requires WellFormed(gs)
    ensures forall k, l :: 0 <= k < l < |Flatten(gs)| ==>
      (Flatten(gs)[k].name, Flatten(gs)[k].rtype) != (Flatten(gs)[l].name, Flatten(gs)[l].rtype)
  {
    if |gs| > 0 {
      FlattenKeysDistinct(gs[1..]);
      FlattenNames(gs[1..]);
      var head := FlattenTypes(gs[0].name, gs[0].types);
      var tail := Flatten(gs[1..]);
      var f := Flatten(gs);
      assert f == head + tail;
      forall k, l | 0 <= k < l < |f|
        ensures (f[k].name, f[k].rtype) != (f[l].name, f[l].rtype)
      {
        if l < |head| {
          assert f[k].rtype == gs[0].types[k].rtype && f[l].rtype == gs[0].types[l].rtype;
        } else if k < |head| {
          assert f[l] == tail[l - |head|];
          var i :| 0 <= i < |gs[1..]| && gs[1..][i].name == tail[l - |head|].name;
          assert gs[i + 1].name != gs[0].name;
        } else {
          assert f[k] == tail[k - |head|] && f[l] == tail[l - |head|];
        }
      }
    }
  }

  /** Within one name, the group at position `k` is what a lookup of its
      type finds. */
  lemma {:induction false} TypesMembers(ts: seq<TypeGroup>, k: int)
    requires TypesWellFormed(ts) && 0 <= k < |ts|
    ensures TypeMembers(ts, ts[k].rtype) == ts[k].members
  {
    if k > 0 {
      TypesMembers(ts[1..], k - 1);
    }
  }

  /** A non-empty lookup has a flattened group with its key. */
  lemma {:induction false} FlattenComplete(gs: seq<NameGroup>, n: string, t: RType)
    requires |Members(gs, n, t)| > 0
    ensures exists k :: 0 <= k < |Flatten(gs)| && Flatten(gs)[k].name == n && Flatten(gs)[k].rtype == t
  {
    var head := FlattenTypes(gs[0].name, gs[0].types);
    if gs[0].name == n {
      var j := TypesComplete(gs[0].types, t);
      assert Flatten(gs)[j] == head[j];
    } else {
      FlattenComplete(gs[1..], n, t);
      var k :| 0 <= k < |Flatten(gs[1..])| && Flatten(gs[1..])[k].name == n && Flatten(gs[1..])[k].rtype == t;
      assert Flatten(gs)[|head| + k] == Flatten(gs[1..])[k];
    }
  }

  /** A non-empty type lookup finds a group at some position. */
  lemma {:induction false} TypesComplete(ts: seq<TypeGroup>, t: RType) returns (j: int)
    requires |TypeMembers(ts, t)| > 0
    ensures 0 <= j < |ts| && ts[j].rtype == t
  {
    if ts[0].rtype == t {
      j := 0;
    } else {
      j := TypesComplete(ts[1..], t);
      j := j + 1;
    }
  }

  /** The groups `populate` decodes partition the supported part of the
      listing: each is non-empty and holds exactly the listed records of its
      name and type in listing order, no key occurs twice, and every listed
      record of a supported type is in the group of its key. */
  lemma GroupsPartition(rs: seq<ProviderRecord>)
    ensures forall k :: 0 <= k < |Flatten(GroupRecords(rs))| ==>
      && |Flatten(GroupRecords(rs))[k].members| > 0
      && Flatten(GroupRecords(rs))[k].members == Matching(rs, Flatten(GroupRecords(rs))[k].name, Flatten(GroupRecords(rs))[k].rtype)
    ensures forall k, l :: 0 <= k < l < |Flatten(GroupRecords(rs))| ==>
      (Flatten(GroupRecords(rs))[k].name, Flatten(GroupRecords(rs))[k].rtype) != (Flatten(GroupRecords(rs))[l].name, Flatten(GroupRecords(rs))[l].rtype)
    ensures forall i :: 0 <= i < |rs| && ParseType(rs[i].rtype).Some? ==>
      exists k :: 0 <= k < |Flatten(GroupRecords(rs))| && Flatten(GroupRecords(rs))[k].name == rs[i].name && Flatten(GroupRecords(rs))[k].rtype == ParseType(rs[i].rtype).value
  {
    var gs := GroupRecords(rs);
    var f := Flatten(gs);
    GroupRecordsWellFormed(rs);
    FlattenMembers(gs);
    FlattenKeysDistinct(gs);
    forall k | 0 <= k < |f|
      ensures f[k].members == Matching(rs, f[k].name, f[k].rtype)
    {
      GroupingLaw(rs, f[k].name, f[k].rtype);
    }
    forall i | 0 <= i < |rs| && ParseType(rs[i].rtype).Some?
      ensures exists k :: 0 <= k < |f| && f[k].name == rs[i].name && f[k].rtype == ParseType(rs[i].rtype).value
    {
      var t := ParseType(rs[i].rtype).value;
      MatchingContains(rs, i, t);
      GroupingLaw(rs, rs[i].name, t);
      FlattenComplete(gs, rs[i].name, t);
    }
  }

  /** A listed record is among the records matching its own key. */
  lemma {:induction false} MatchingContains(rs: seq<ProviderRecord>, i: int, t: RType)
    requires 0 <= i < |rs| && rs[i].rtype == TypeName(t)
    ensures |Matching(rs, rs[i].name, t)| > 0
  {
    if i < |rs| - 1 {
      MatchingContains(rs[..|rs| - 1], i, t);
    }
  }

  /** Nothing that matches is left out: every listed record with the name
      and the type is among the matching records. */
  lemma {:induction false} MatchingComplete(rs: seq<ProviderRecord>, n: string, t: RType)
    ensures forall j :: 0 <= j < |rs| && rs[j].name == n && rs[j].rtype == TypeName(t) ==> rs[j] in Matching(rs, n, t)
  {
    if |rs| > 0 {
      MatchingComplete(rs[..|rs| - 1], n, t);
      forall j | 0 <= j < |rs| - 1
        ensures rs[j] == rs[..|rs| - 1][j]
      {
      }
    }
  }

  /** Matching keeps listing order: the matches of a concatenation are the
      matches of its first part followed by those of its second. */
  lemma {:induction false} MatchingAppend(a: seq<ProviderRecord>, b: seq<ProviderRecord>, n: string, t: RType)
    ensures Matching(a + b, n, t) == Matching(a, n, t) + Matching(b, n, t)
    decreases |b|
  {
    if |b| == 0 {
      assert a + b == a;
    } else {
      assert (a + b)[..|a + b| - 1] == a + b[..|b| - 1];
      MatchingAppend(a, b[..|b| - 1], n, t);
    }
  }

  /** The records added before the first group that raised, and that
      group's error. */
  datatype Decoded = Decoded(added: seq<Record>, failure: Option<Error>)

  /** `populate`'s second loop: each group decoded in order; the first group
      that raises ends the loop, the records already added staying added. */
  function DecodeGroups(gs: seq<Group>): (d: Decoded)
    requires forall k :: 0 <= k < |gs| ==> |gs[k].members| > 0
    ensures |d.added| <= |gs|
    ensures forall k :: 0 <= k < |d.added| ==> DataFor(gs[k].name, gs[k].rtype, gs[k].members) == Success(d.added[k])
    ensures d.failure.None? <==> |d.added| == |gs|
    ensures d.failure.Some? ==> DataFor(gs[|d.added|].name, gs[|d.added|].rtype, gs[|d.added|].members) == Failure(d.failure.value)
  {
    if |gs| == 0 then Decoded([], None)
    else
      var r := DataFor(gs[0].name, gs[0].rtype, gs[0].members);
      if r.Failure? then Decoded([], Some(r.error))
      else
        var rest := DecodeGroups(gs[1..]);
        assert forall k :: 1 <= k < |gs| ==> gs[k] == gs[1..][k - 1];
        Decoded([r.value] + rest.added, rest.failure)
  }

  /** The groups `populate` decodes for a listing, in the order it decodes
      them. */
  function PopulateGroups(rs: seq<ProviderRecord>): (f: seq<Group>)
    ensures forall k :: 0 <= k < |f| ==> |f[k].members| > 0 && f[k].members == Matching(rs, f[k].name, f[k].rtype)
  {
    GroupsPartition(rs);
    Flatten(GroupRecords(rs))
  }

  /** What a populate did: the requests it sent, the provider's state after
      it, the records it added to the zone, and what it returned (whether
      the zone exists) or raised. */
  datatype Populated = Populated(calls: seq<ApiCall>, state: State, added: seq<Record>, found: Result<bool, Error>)

  /** `populate(zone)`: fetch (or reuse) the zone's records, group them,
      decode each group into a record, and answer whether the zone's
      records are cached, which is how the provider tells an existing zone
      from a missing one. */
  function PopulateZone(s: State, zoneName: string, remote: Remote): (p: Populated)
    ensures zoneName in s.zoneRecords ==> p.calls == []
    ensures zoneName !in s.zoneRecords ==> p.calls == [ListRecords(Domain(zoneName))]
    ensures p.state.zoneMetadata == s.zoneMetadata
    ensures p.state.zoneRecords - {zoneName} == s.zoneRecords - {zoneName}
    ensures p.found == Success(true) <==>
      (zoneName in p.state.zoneRecords && DecodeGroups(PopulateGroups(p.state.zoneRecords[zoneName])).failure.None?)
    ensures p.found == Success(false) ==> p.added == [] && p.state == s
    ensures var l := ZoneRecords(s, zoneName, remote);
      l.result.Failure? ==> p.found == Failure(l.result.error) && p.added == [] && p.state == l.state
    ensures var l := ZoneRecords(s, zoneName, remote);
      l.result.Success? ==>
        var d := DecodeGroups(PopulateGroups(l.result.value));
        && p.state == l.state
        && p.added == d.added
        && (p.found.Failure? <==> d.failure.Some?)
        && (d.failure.Some? ==> p.found == Failure(d.failure.value))
  {
    var l := ZoneRecords(s, zoneName, remote);
    if l.result.Failure? then Populated(l.calls, l.state, [], Failure(l.result.error))
    else
      var d := DecodeGroups(PopulateGroups(l.result.value));
      if d.failure.Some? then Populated(l.calls, l.state, d.added, Failure(d.failure.value))
      else Populated(l.calls, l.state, d.added, Success(zoneName in l.state.zoneRecords))
  }

  /** A zone whose records are found and decoded is served from the cache
      the second time: no request is sent, whatever the API would answer,
      and the same records are added. */
  lemma PopulateFromCache(s: State, zoneName: string, remote: Remote, later: Remote)
    requires PopulateZone(s, zoneName, remote).found == Success(true)
    ensures var p := PopulateZone(s, zoneName, remote);
      PopulateZone(p.state, zoneName, later) == Populated([], p.state, p.added, p.found)
  {
  }

  /** A zone the API does not know (a 404 on the listing) populates
      nothing, reports that it does not exist, and is not cached. */
  lemma PopulateMissingZone(s: State, zoneName: string, remote: Remote)
    requires zoneName !in s.zoneRecords
    requires remote.status(ListRecords(Domain(zoneName))) == 404
    ensures PopulateZone(s, zoneName, remote) == Populated([ListRecords(Domain(zoneName))], s, [], Success(false))
  {
  }

  /** A listing the API rejects with anything but a 404 is raised by
      `populate`: nothing is added and nothing is cached. */
  lemma PopulateListingError(s: State, zoneName: string, remote: Remote)
    requires zoneName !in s.zoneRecords
    requires StatusError(remote.status(ListRecords(Domain(zoneName)))).Some?
    requires StatusError(remote.status(ListRecords(Domain(zoneName)))) != Some(NotFound)
    ensures var p := PopulateZone(s, zoneName, remote);
      && p.found == Failure(StatusError(remote.status(ListRecords(Domain(zoneName)))).value)
      && p.added == [] && p.state == s
  {
  }

  /** A populate that answers "found" has added one record for every group
      of the cached listing, in the order the groups are decoded: the
      group's decoding, with its name and type. So every listed record of a
      supported type is covered by an added record of its name and type. */
  lemma PopulateAddsEveryGroup(s: State, zoneName: string, remote: Remote)
    requires PopulateZone(s, zoneName, remote).found == Success(true)
    ensures var p := PopulateZone(s, zoneName, remote);
      var f := PopulateGroups(p.state.zoneRecords[zoneName]);
      && |p.added| == |f|
      && forall k :: 0 <= k < |f| ==>
           && p.added[k].name == f[k].name
           && TypeOf(p.added[k].data) == f[k].rtype
           && DataFor(f[k].name, f[k].rtype, f[k].members) == Success(p.added[k])
    ensures var p := PopulateZone(s, zoneName, remote);
      var listing := p.state.zoneRecords[zoneName];
      forall i :: 0 <= i < |listing| && ParseType(listing[i].rtype).Some? ==>
        exists k :: 0 <= k < |p.added| && p.added[k].name == listing[i].name && TypeOf(p.added[k].data) == ParseType(listing[i].rtype).value
  {
    var p := PopulateZone(s, zoneName, remote);
    var listing := p.state.zoneRecords[zoneName];
    var f := PopulateGroups(listing);
    forall k | 0 <= k < |f|
      ensures p.added[k].name == f[k].name && TypeOf(p.added[k].data) == f[k].rtype
    {
      DataForSpec(f[k].name, f[k].rtype, f[k].members);
    }
    GroupsPartition(listing);
  }

  /** Every record a populate adds is the decoding of one group of the
      listing: the records listed under its name with its type. */
  lemma PopulateAddsGroups(s: State, zoneName: string, remote: Remote)
    requires PopulateZone(s, zoneName, remote).found.Success?
    ensures var p := PopulateZone(s, zoneName, remote);
      var listing := ZoneRecords(s, zoneName, remote).result.value;
      forall k :: 0 <= k < |p.added| ==>
        && |Matching(listing, p.added[k].name, TypeOf(p.added[k].data))| > 0
        && DataFor(p.added[k].name, TypeOf(p.added[k].data), Matching(listing, p.added[k].name, TypeOf(p.added[k].data))) == Success(p.added[k])
  {
    var p := PopulateZone(s, zoneName, remote);
    var listing := ZoneRecords(s, zoneName, remote).result.value;
    var f := PopulateGroups(listing);
    forall k | 0 <= k < |p.added|
      ensures f[k].name == p.added[k].name && f[k].rtype == TypeOf(p.added[k].data)
    {
      DataForSpec(f[k].name, f[k].rtype, f[k].members);
    }
  }
}

=== FILE: records.dfy ===
/** The two record shapes the provider translates between, and the errors
    a translation or a request can end in. */
module Records {
  import opened Wrappers

  /** One record as Vultr's API lists it: one per value. `name` is relative
      to the zone, `data` packs the value (several fields for CAA and SRV),
      `priority` is used by MX and SRV only (-1 otherwise), and the `ttl`
      key may be missing from the response. */
  datatype ProviderRecord = ProviderRecord(
    id: string,
    rtype: string,
    name: string,
    data: string,
    priority: int,
    ttl: Option<int>)

  /** The structured values of octoDNS's multi-field record types. */
  datatype MxValue = MxValue(preference: int, exchange: string)
  datatype SrvValue = SrvValue(priority: int, weight: int, port: int, target: string)
  datatype CaaValue = CaaValue(flags: int, tag: string, value: string)

  /** The record types the provider supports (`VultrProvider.SUPPORTS`). */
  datatype RType = A | AAAA | CAA | CNAME | MX | NS | SRV | TXT

  /** The value part of an octoDNS record, one variant per supported type;
      CNAME is the only single-value type. */
  datatype RData =
    | AValues(values: seq<string>)
    | AaaaValues(values: seq<string>)
    | CaaValues(caas: seq<CaaValue>)
    | CnameValue(value: string)
    | MxValues(mxs: seq<MxValue>)
    | NsValues(values: seq<string>)
    | SrvValues(srvs: seq<SrvValue>)
    | TxtValues(values: seq<string>)

  /** An octoDNS record: one per (name, type) in a zone. */
  datatype Record = Record(name: string, ttl: int, data: RData)

  /** `VultrProvider.SUPPORTS`, as the type tags the API uses. */
  const SupportedTypes: set<string> := {"A", "AAAA", "CAA", "CNAME", "MX", "NS", "SRV", "TXT"}

  /** The type tag of a record type, as the API and octoDNS spell it. */
  function TypeName(t: RType): (s: string)
    ensures s in SupportedTypes
  {
    match t
    case A => "A"
    case AAAA => "AAAA"
    case CAA => "CAA"
    case CNAME => "CNAME"
    case MX => "MX"
    case NS => "NS"
    case SRV => "SRV"
    case TXT => "TXT"
  }

  /** The record type a type tag names; `None` for the tags outside
      `SUPPORTS`, which `populate` skips. */
  function ParseType(s: string): (t: Option<RType>)
    ensures t.Some? <==> s in SupportedTypes
    ensures t.Some? ==> TypeName(t.value) == s
  {
    if s == "A" then Some(A)
    else if s == "AAAA" then Some(AAAA)
    else if s == "CAA" then Some(CAA)
    else if s == "CNAME" then Some(CNAME)
    else if s == "MX" then Some(MX)
    else if s == "NS" then Some(NS)
    else if s == "SRV" then Some(SRV)
    else if s == "TXT" then Some(TXT)
    else None
  }

  /** Reading a type tag back gives the type. */
  lemma ParseTypeName(t: RType)
    ensures ParseType(TypeName(t)) == Some(t)
  {
  }

  /** The types `_data_for_multiple` and `_params_for_multiple` handle:
      one plain string per value. */
  predicate PlainValues(t: RType) {
    t == A || t == AAAA || t == TXT
  }

  /** The types whose parameter sets carry a `priority`. */
  predicate Prioritised(t: RType) {
    t == MX || t == SRV
  }

  /** The type of a record's value (`record._type`). */
  function TypeOf(d: RData): RType {
    match d
    case AValues(_) => A
    case AaaaValues(_) => AAAA
    case CaaValues(_) => CAA
    case CnameValue(_) => CNAME
    case MxValues(_) => MX
    case NsValues(_) => NS
    case SrvValues(_) => SRV
    case TxtValues(_) => TXT
  }

  /** How many values a record holds. */
  function ValueCount(d: RData): nat {
    match d
    case AValues(vs) => |vs|
    case AaaaValues(vs) => |vs|
    case CaaValues(cs) => |cs|
    case CnameValue(_) => 1
    case MxValues(ms) => |ms|
    case NsValues(vs) => |vs|
    case SrvValues(ss) => |ss|
    case TxtValues(vs) => |vs|
  }

  /** What a populate or an apply can end in instead of a result: the
      client's exceptions (`VultrClientUnauthorized`, `VultrClientForbidden`,
      `VultrClientNotFound`, and the `HTTPError` of `raise_for_status`) and
      the two Python errors the decoders can raise. */
  datatype Error =
    | Unauthorized
    | Forbidden
    | NotFound
    | HttpError(status: int)
    | IndexError
    | ValueError
}

=== FILE: roundtrip.dfy ===
/** Writing a record and reading it back. A record goes out through
    `_params_for_<type>` and `zone_record_create`, the API is taken to store
    each posted body as it is, and a later `zone_records_get` lists the
    stored records in the order they were posted; `_data_for_<type>` then
    rebuilds the record. The round trip closes exactly for the records
    whose values survive the packing, which `Sendable` spells out. */
module RoundTrip {
  import opened Wrappers
  import opened Text
  import opened Records
  import opened Client
  import opened Decode
  import opened Encode
  import opened Apply

  /** The record the API lists for a posted body, when it stores the body
      as sent: no priority posted reads back as priority 0. */
  function Echo(b: Payload): ProviderRecord {
    ProviderRecord("", b.rtype, b.name, b.data, b.priority.GetOr(0), b.ttl)
  }

  /** The provider records a later `zone_records_get` returns for the
      bodies `_apply_Create` posts for `r`. */
  function Listed(r: Record): (rs: seq<ProviderRecord>)
    ensures |rs| == ValueCount(r.data)
  {
    var ps := ParamsFor(r);
    NormalizeApex(seq(|ps|, i requires 0 <= i < |ps| => Echo(Post(ps[i]))))
  }

  /** The records a later listing returns once the create requests `cs`
      were accepted, each body stored as sent. */
  function ListedAfter(cs: seq<ApiCall>): seq<ProviderRecord>
    requires forall i :: 0 <= i < |cs| ==> cs[i].CreateRecord?
  {
    NormalizeApex(seq(|cs|, i requires 0 <= i < |cs| => Echo(cs[i].body)))
  }

  /** The bodies `_apply_Create` posts for `r`, to any domain, are the ones
      `Listed` echoes back. */
  lemma CreatedListed(domain: string, r: Record)
    ensures ListedAfter(CreateCalls(domain, r)) == Listed(r)
  {
    var cs, ps := CreateCalls(domain, r), ParamsFor(r);
    assert seq(|cs|, i requires 0 <= i < |cs| => Echo(cs[i].body)) == seq(|ps|, i requires 0 <= i < |ps| => Echo(Post(ps[i])));
  }

  /** An SRV target that survives losing its trailing dot on the way out
      and `_append_dot` on the way back: it ends in a dot that is not its
      only character, and what is left neither ends in a dot nor is `@`. */
  predicate SrvTargetSurvives(t: string) {
    |t| >= 2 && t[|t| - 1] == '.' && t[|t| - 2] != '.' && t != "@."
  }

  /** A CAA value that survives being packed: the tag has no space (it
      would shift the split) and the value neither starts nor ends with a
      quote (`strip('"')` would eat it). */
  predicate CaaSurvives(c: CaaValue) {
    ' ' !in c.tag && (|c.value| == 0 || (c.value[0] != '"' && c.value[|c.value| - 1] != '"'))
  }

  /** The records the round trip closes for: a name other than `@` (read
      back as the apex), a non-zero TTL (omitted from the body when zero,
      and then read back as 300), at least one value, and values in the
      shape the reader produces. A zero MX or SRV priority is omitted too,
      and reads back as 0 because `Echo` lists a missing priority as 0. */
  predicate Sendable(r: Record) {
    && r.name != "@"
    && r.ttl != 0
    && ValueCount(r.data) > 0
    && match r.data
       case AValues(vs) => forall i :: 0 <= i < |vs| ==> Escaped(vs[i])
       case AaaaValues(vs) => forall i :: 0 <= i < |vs| ==> Escaped(vs[i])
       case TxtValues(vs) => forall i :: 0 <= i < |vs| ==> Escaped(vs[i])
       case NsValues(vs) => forall i :: 0 <= i < |vs| ==> FullyQualified(vs[i]) && NoEscapes(vs[i])
       case CnameValue(v) => FullyQualified(v)
       case MxValues(ms) => forall i :: 0 <= i < |ms| ==> FullyQualified(ms[i].exchange)
       case SrvValues(ss) => forall i :: 0 <= i < |ss| ==> SrvTargetSurvives(ss[i].target)
       case CaaValues(cs) => forall i :: 0 <= i < |cs| ==> CaaSurvives(cs[i])
  }

  /** The A, AAAA and TXT reader gives back escaped values whose unescaped
      forms were listed. */
  lemma EscapedValuesOf(group: seq<ProviderRecord>, vs: seq<string>)
    requires |group| == |vs|
    requires forall i :: 0 <= i < |vs| ==> Escaped(vs[i]) && group[i].data == Unescape(vs[i])
    ensures EscapedValues(group) == vs
  {
    var out := EscapedValues(group);
    EscapedValuesSpec(group);
    forall i | 0 <= i < |vs|
      ensures out[i] == vs[i]
    {
      EscapeUnescape(out[i]);
      EscapeUnescape(vs[i]);
    }
  }

  /** The NS reader gives back fully qualified values as listed. */
  lemma DecodeNsOf(group: seq<ProviderRecord>, vs: seq<string>)
    requires |group| == |vs|
    requires forall i :: 0 <= i < |vs| ==> FullyQualified(vs[i]) && group[i].data == vs[i]
    ensures DecodeNs(group) == Success(vs)
  {
    EachAt(group, NsFrom);
    forall i | 0 <= i < |vs|
      ensures NsFrom(group[i]) == Some(Success(vs[i]))
    {
      assert FullyQualified(vs[i]);
    }
    GatherAll(Each(group, NsFrom), vs);
  }

  /** The MX reader gives back fully qualified exchanges with the listed
      priorities as preferences. */
  lemma DecodeMxOf(group: seq<ProviderRecord>, ms: seq<MxValue>)
    requires |group| == |ms|
    requires forall i :: 0 <= i < |ms| ==>
      FullyQualified(ms[i].exchange) && group[i].data == ms[i].exchange && group[i].priority == ms[i].preference
    ensures DecodeMx(group) == Success(ms)
  {
    EachAt(group, MxFrom);
    forall i | 0 <= i < |ms|
      ensures MxFrom(group[i]) == Some(Success(ms[i]))
    {
      assert FullyQualified(ms[i].exchange);
    }
    GatherAll(Each(group, MxFrom), ms);
  }

  /** One packed CAA value reads back as itself. */
  lemma CaaFromData(r: ProviderRecord, c: CaaValue)
    requires CaaSurvives(c) && r.data == CaaData(c)
    ensures CaaFrom(r) == Some(Success(c))
  {
    CaaDataSplits(c);
    ParseIntToString(c.flags);
    StripQuotesOfQuoted(c.value);
  }

  /** The CAA reader gives back the packed values. */
  lemma DecodeCaaOf(group: seq<ProviderRecord>, cs: seq<CaaValue>)
    requires |group| == |cs|
    requires forall i :: 0 <= i < |cs| ==> CaaSurvives(cs[i]) && group[i].data == CaaData(cs[i])
    ensures DecodeCaa(group) == Success(cs)
  {
    forall i | 0 <= i < |cs|
      ensures CaaFrom(group[i]) == Some(Success(cs[i]))
    {
      CaaFromData(group[i], cs[i]);
    }
    EachAt(group, CaaFrom);
    GatherAll(Each(group, CaaFrom), cs);
  }

  /** An SRV target that survives, stripped of its dot, is dotted again. */
  lemma SrvTargetBack(t: string)
    requires SrvTargetSurvives(t)
    ensures AppendDot(StripTrailingDot(t)) == Some(t)
  {
    var s := StripTrailingDot(t);
    assert s + "." == t;
    assert s[|s| - 1] == t[|t| - 2];
  }

  /** Why `SrvTargetSurvives` excludes the root target `.`: it is packed
      with an empty target, and `_append_dot` of the empty string raises,
      so the record can no longer be read. */
  lemma SrvRootTargetUnreadable(r: ProviderRecord, v: SrvValue)
    requires v.target == "." && r.data == SrvData(v)
    ensures SrvFrom(r) == Some(Failure(IndexError))
  {
    SrvDataSplits(v);
    ParseIntToString(v.port);
  }

  /** One packed SRV value reads back as itself, its priority coming from
      the record's own field. */
  lemma SrvFromData(r: ProviderRecord, v: SrvValue)
    requires SrvTargetSurvives(v.target) && r.data == SrvData(v) && r.priority == v.priority
    ensures SrvFrom(r) == Some(Success(v))
  {
    SrvDataSplits(v);
    ParseIntToString(v.weight);
    ParseIntToString(v.port);
    SrvTargetBack(v.target);
  }

  /** The SRV reader gives back the packed values. */
  lemma DecodeSrvOf(group: seq<ProviderRecord>, ss: seq<SrvValue>)
    requires |group| == |ss|
    requires forall i :: 0 <= i < |ss| ==>
      SrvTargetSurvives(ss[i].target) && group[i].data == SrvData(ss[i]) && group[i].priority == ss[i].priority
    ensures DecodeSrv(group) == Success(ss)
  {
    forall i | 0 <= i < |ss|
      ensures SrvFrom(group[i]) == Some(Success(ss[i]))
    {
      SrvFromData(group[i], ss[i]);
    }
    EachAt(group, SrvFrom);
    GatherAll(Each(group, SrvFrom), ss);
  }

  /** What the listing holds for each posted value: the record's name and
      TTL, the packed data, and the priority that was posted. */
  lemma ListedShape(r: Record)
    requires r.name != "@" && r.ttl != 0
    ensures var ps, g := ParamsFor(r), Listed(r);
      forall i :: 0 <= i < |g| ==>
        && g[i].name == r.name
        && g[i].ttl == Some(r.ttl)
        && g[i].data == ps[i].data
        && (ps[i].priority.Some? && (ps[i].rtype == "MX" || ps[i].rtype == "SRV") ==> g[i].priority == ps[i].priority.value)
  {
  }

  /** The round trip of an A, AAAA or TXT record. */
  lemma EscapedRoundTrip(r: Record)
    requires Sendable(r) && (r.data.AValues? || r.data.AaaaValues? || r.data.TxtValues?)
    ensures DataFor(r.name, TypeOf(r.data), Listed(r)) == Success(r)
  {
    ListedShape(r);
    EscapedValuesOf(Listed(r), r.data.values);
  }

  /** The round trip of an NS record. */
  lemma NsRoundTrip(r: Record)
    requires Sendable(r) && r.data.NsValues?
    ensures DataFor(r.name, NS, Listed(r)) == Success(r)
  {
    ListedShape(r);
    var vs := r.data.values;
    assert forall i :: 0 <= i < |vs| ==> Unescape(vs[i]) == vs[i];
    DecodeNsOf(Listed(r), vs);
  }

  /** The round trip of an MX record. */
  lemma MxRoundTrip(r: Record)
    requires Sendable(r) && r.data.MxValues?
    ensures DataFor(r.name, MX, Listed(r)) == Success(r)
  {
    ListedShape(r);
    DecodeMxOf(Listed(r), r.data.mxs);
  }

  /** The round trip of an SRV record. */
  lemma SrvRoundTrip(r: Record)
    requires Sendable(r) && r.data.SrvValues?
    ensures DataFor(r.name, SRV, Listed(r)) == Success(r)
  {
    var g := Listed(r);
    ListedShape(r);
    SrvListed(r);
    SrvValuesFor(g, r.data.srvs);
  }

  /** The SRV reader gives back the values of a sendable SRV record from
      its listing. */
  lemma SrvListed(r: Record)
    requires Sendable(r) && r.data.SrvValues?
    ensures DecodeSrv(Listed(r)) == Success(r.data.srvs)
  {
    var ss, ps, g := r.data.srvs, ParamsFor(r), Listed(r);
    ListedShape(r);
    forall i | 0 <= i < |ss|
      ensures g[i].data == SrvData(ss[i]) && g[i].priority == ss[i].priority
    {
      assert ps[i] == Params(r.name, "SRV", SrvData(ss[i]), r.ttl, Some(ss[i].priority));
    }
    DecodeSrvOf(g, ss);
  }

  /** `ValuesFor` passes on what the SRV reader gives back. */
  lemma SrvValuesFor(g: seq<ProviderRecord>, ss: seq<SrvValue>)
    requires |g| > 0 && DecodeSrv(g) == Success(ss)
    ensures ValuesFor(SRV, g) == Success(SrvValues(ss))
  {
  }

  /** The round trip of a CAA record. */
  lemma CaaRoundTrip(r: Record)
    requires Sendable(r) && r.data.CaaValues?
    ensures DataFor(r.name, CAA, Listed(r)) == Success(r)
  {
    ListedShape(r);
    DecodeCaaOf(Listed(r), r.data.caas);
  }

  /** What `_apply_Create` sends for a sendable record is, once listed
      again, read back by `populate`'s decoder exactly as the record. */
  lemma CreateRoundTrip(domain: string, r: Record)
    requires Sendable(r)
    ensures DataFor(r.name, TypeOf(r.data), ListedAfter(CreateCalls(domain, r))) == Success(r)
  {
    CreatedListed(domain, r);
    RecordRoundTrip(r);
  }

  /** Every sendable record is read back, after being written, exactly as
      it was: same name, same TTL, same values in the same order. */
  lemma RecordRoundTrip(r: Record)
    requires Sendable(r)
    ensures DataFor(r.name, TypeOf(r.data), Listed(r)) == Success(r)
  {
    match r.data
    case AValues(_) => EscapedRoundTrip(r);
    case AaaaValues(_) => EscapedRoundTrip(r);
    case TxtValues(_) => EscapedRoundTrip(r);
    case NsValues(_) => NsRoundTrip(r);
    case CnameValue(_) => ListedShape(r);
    case MxValues(_) => MxRoundTrip(r);
    case SrvValues(_) => SrvRoundTrip(r);
    case CaaValues(_) => CaaRoundTrip(r);
  }

  /** The other direction, for the types whose values are not reshaped: a
      listed A, AAAA or TXT group, read and written again, posts the data
      it was read from. */
  lemma ReencodeMultiple(name: string, t: RType, group: seq<ProviderRecord>)
    requires PlainValues(t) && |group| > 0
    ensures DataFor(name, t, group).Success?
    ensures var ps := ParamsFor(DataFor(name, t, group).value);
      |ps| == |group| && forall i :: 0 <= i < |group| ==> ps[i].data == group[i].data
  {
    EscapedValuesSpec(group);
  }
}

=== FILE: text.dfy ===
/** The string operations the Vultr provider is built on: the semicolon
    escaping of `str.replace`, `str.split(' ', 2)`, `str.strip('"')`,
    `int()` and `str()` on integers, and the provider's trailing-dot
    normaliser `_append_dot`. */
module Text {
  import opened Wrappers

  // ---------------------------------------------------------------------
  // Semicolon escaping

  /** Every ';' in `v` is preceded by a backslash: the escaped form octoDNS
      keeps TXT-like values in. */
  predicate Escaped(v: string) {
    forall i :: 0 <= i < |v| && v[i] == ';' ==> 0 < i && v[i - 1] == '\\'
  }

  /** No backslash-semicolon pair occurs in `v`. */
  predicate NoEscapes(v: string) {
    forall i :: 0 < i < |v| ==> !(v[i - 1] == '\\' && v[i] == ';')
  }

  /** `s.replace(';', '\\;')`: the read path's escaping. */
  function Escape(s: string): (r: string)
    ensures Escaped(r)
    ensures ';' !in s ==> r == s
  {
    if |s| == 0 then ""
    else if s[0] == ';' then "\\;" + Escape(s[1..])
    else
      var rest := Escape(s[1..]);
      assert s == [s[0]] + s[1..];
      [s[0]] + rest
  }

  /** `s.replace('\\;', ';')`: the write path's unescaping, a left-to-right
      scan that replaces each non-overlapping backslash-semicolon pair. */
  function Unescape(s: string): (r: string)
    ensures |r| <= |s|
    ensures NoEscapes(s) ==> r == s
  {
    if |s| == 0 then ""
    else if |s| >= 2 && s[0] == '\\' && s[1] == ';' then ";" + Unescape(s[2..])
    else
      var rest := Unescape(s[1..]);
      assert s == [s[0]] + s[1..];
      [s[0]] + rest
  }

  /** Unescaping undoes escaping, for every string. */
  lemma {:induction false} UnescapeEscape(s: string)
    ensures Unescape(Escape(s)) == s
    decreases |s|
  {
    if |s| > 0 {
      var e := Escape(s[1..]);
      UnescapeEscape(s[1..]);
      if s[0] == ';' {
        var x := "\\;" + e;
        assert Escape(s) == x;
        assert x[2..] == e;
        assert Unescape(x) == ";" + Unescape(e);
        assert s == ";" + s[1..];
      } else {
        var x := [s[0]] + e;
        assert Escape(s) == x;
        assert |e| > 0 ==> e[0] != ';';
        assert x[1..] == e;
        assert Unescape(x) == [s[0]] + Unescape(e);
        assert s == [s[0]] + s[1..];
      }
    }
  }

  /** Escaping undoes unescaping on values already in escaped form. */
  lemma {:induction false} EscapeUnescape(v: string)
    requires Escaped(v)
    ensures Escape(Unescape(v)) == v
    decreases |v|
  {
    if |v| > 0 {
      if |v| >= 2 && v[0] == '\\' && v[1] == ';' {
        var rest := v[2..];
        forall i | 0 <= i < |rest| && rest[i] == ';'
          ensures 0 < i && rest[i - 1] == '\\'
        {
          assert v[i + 2] == ';';
        }
        EscapeUnescape(rest);
        var u := Unescape(rest);
        assert (";" + u)[1..] == u;
        assert v == "\\;" + rest;
      } else {
        var rest := v[1..];
        forall i | 0 <= i < |rest| && rest[i] == ';'
          ensures 0 < i && rest[i - 1] == '\\'
        {
          assert v[i + 1] == ';';
        }
        EscapeUnescape(rest);
        var u := Unescape(rest);
        assert ([v[0]] + u)[1..] == u;
        assert v == [v[0]] + rest;
      }
    }
  }

  // ---------------------------------------------------------------------
  // Trailing dots

  /** A host name in the form octoDNS stores: ending in '.', or the apex `@`. */
  predicate FullyQualified(v: string) {
    v == "@" || (|v| > 0 && v[|v| - 1] == '.')
  }

  /** `_append_dot`: leaves `@` and dotted names alone and appends a '.'
      otherwise; on the empty string `value[-1]` raises IndexError, which is
      `None` here. */
  function AppendDot(v: string): (r: Option<string>)
    ensures r.Some? <==> |v| > 0
    ensures r.Some? ==> FullyQualified(r.value)
    ensures r.Some? ==> (r.value == v <==> FullyQualified(v))
    ensures r.Some? && !FullyQualified(v) ==> r.value == v + "."
  {
    if |v| == 0 then None
    else if v == "@" || v[|v| - 1] == '.' then Some(v)
    else Some(v + ".")
  }

  /** Appending the dot twice is appending it once. */
  lemma AppendDotIdempotent(v: string)
    requires |v| > 0
    ensures AppendDot(AppendDot(v).value) == AppendDot(v)
  {
  }

  /** The SRV encoder's `if target.endswith('.'): target = target[:-1]`. */
  function StripTrailingDot(t: string): (r: string)
    ensures |t| > 0 && t[|t| - 1] == '.' ==> r + "." == t
    ensures !(|t| > 0 && t[|t| - 1] == '.') ==> r == t
  {
    if |t| > 0 && t[|t| - 1] == '.' then t[..|t| - 1] else t
  }

  // ---------------------------------------------------------------------
  // Splitting on spaces

  /** `s.split(' ', 1)`: the text before the first space and the text after
      it, or None when `s` holds no space. */
  function SplitOnce(s: string): Option<(string, string)> {
    if |s| == 0 then None
    else if s[0] == ' ' then Some(("", s[1..]))
    else
      var rest := SplitOnce(s[1..]);
      if rest.None? then None else Some(([s[0]] + rest.value.0, rest.value.1))
  }

  /** `split(' ', 1)` splits exactly when `s` holds a space, at the first
      one: the parts rejoin to `s` and the first holds no space. */
  lemma {:induction false} SplitOnceSpec(s: string)
    ensures SplitOnce(s).None? <==> ' ' !in s
    ensures SplitOnce(s).Some? ==> s == SplitOnce(s).value.0 + " " + SplitOnce(s).value.1 && ' ' !in SplitOnce(s).value.0
  {
    if |s| > 0 {
      if s[0] == ' ' {
        assert s == "" + " " + s[1..];
      } else {
        SplitOnceSpec(s[1..]);
        var rest := SplitOnce(s[1..]);
        assert s == [s[0]] + s[1..];
        assert ' ' in s <==> ' ' in s[1..];
        if rest.Some? {
          assert s == ([s[0]] + rest.value.0) + " " + rest.value.1;
        }
      }
    }
  }

  /** `s` holds at most one space. */
  predicate AtMostOneSpace(s: string) {
    forall i, j :: 0 <= i < j < |s| && s[i] == ' ' ==> s[j] != ' '
  }

  /** `s.split(' ', 2)` when it yields three parts; None when it yields
      fewer. */
  function Split3(s: string): Option<(string, string, string)> {
    var first := SplitOnce(s);
    if first.None? then None
    else
      var second := SplitOnce(first.value.1);
      if second.None? then None
      else Some((first.value.0, second.value.0, second.value.1))
  }

  /** `split(' ', 2)` yields three parts exactly when `s` holds at least two
      spaces; the first two hold no space, and the three rejoin to `s`. */
  lemma Split3Spec(s: string)
    ensures Split3(s).Some? ==> s == Split3(s).value.0 + " " + Split3(s).value.1 + " " + Split3(s).value.2
    ensures Split3(s).Some? ==> ' ' !in Split3(s).value.0 && ' ' !in Split3(s).value.1
    ensures Split3(s).None? <==> AtMostOneSpace(s)
  {
    var first := SplitOnce(s);
    SplitOnceSpec(s);
    if first.Some? {
      var second := SplitOnce(first.value.1);
      SplitOnceSpec(first.value.1);
      if second.None? {
        OneSpace(first.value.0, first.value.1);
      } else {
        var (a, b, c) := (first.value.0, second.value.0, second.value.1);
        assert s == a + " " + b + " " + c;
        assert s[|a|] == ' ' && s[|a| + 1 + |b|] == ' ';
      }
    }
  }

  /** A string with one space between two space-free parts holds at most
      one space. */
  lemma OneSpace(a: string, b: string)
    requires ' ' !in a && ' ' !in b
    ensures AtMostOneSpace(a + " " + b)
  {
    var s := a + " " + b;
    forall i, j | 0 <= i < j < |s| && s[i] == ' '
      ensures s[j] != ' '
    {
      assert i == |a|;
      assert s[j] == b[j - |a| - 1];
    }
  }

  /** Splitting at the first space recovers a space-free prefix. */
  lemma {:induction false} SplitOnceOf(a: string, rest: string)
    requires ' ' !in a
    ensures SplitOnce(a + " " + rest) == Some((a, rest))
    decreases |a|
  {
    var s := a + " " + rest;
    if |a| == 0 {
      assert s[1..] == rest;
    } else {
      assert s[0] == a[0];
      assert s[1..] == a[1..] + " " + rest;
      SplitOnceOf(a[1..], rest);
      assert [a[0]] + a[1..] == a;
    }
  }

  /** `split(' ', 2)` on `a b c` with space-free `a` and `b` returns the
      three parts. */
  lemma Split3Of(a: string, b: string, c: string)
    requires ' ' !in a && ' ' !in b
    ensures Split3(a + " " + b + " " + c) == Some((a, b, c))
  {
    var s := a + " " + b + " " + c;
    assert s == a + " " + (b + " " + c);
    SplitOnceOf(a, b + " " + c);
    SplitOnceOf(b, c);
  }

  // ---------------------------------------------------------------------
  // Stripping quotes

  /** `s.lstrip('"')`. */
  function StripLeadingQuotes(s: string): (r: string)
    ensures |r| <= |s| && r == s[|s| - |r|..]
    ensures forall i :: 0 <= i < |s| - |r| ==> s[i] == '"'
    ensures |r| == 0 || r[0] != '"'
  {
    if |s| > 0 && s[0] == '"' then StripLeadingQuotes(s[1..]) else s
  }

  /** `s.rstrip('"')`. */
  function StripTrailingQuotes(s: string): (r: string)
    ensures |r| <= |s| && r == s[..|r|]
    ensures forall i :: |r| <= i < |s| ==> s[i] == '"'
    ensures |r| == 0 || r[|r| - 1] != '"'
  {
    if |s| > 0 && s[|s| - 1] == '"' then StripTrailingQuotes(s[..|s| - 1]) else s
  }

  /** `s.strip('"')`. */
  function StripQuotes(s: string): string {
    StripTrailingQuotes(StripLeadingQuotes(s))
  }

  /** Stripping the quotes the CAA encoder puts around a value gives the value
      back, provided the value itself neither starts nor ends with '"'. */
  lemma StripQuotesOfQuoted(v: string)
    requires |v| == 0 || (v[0] != '"' && v[|v| - 1] != '"')
    ensures StripQuotes("\"" + v + "\"") == v
  {
    var q := "\"" + v + "\"";
    assert q[1..] == v + "\"";
    if |v| == 0 {
      assert StripLeadingQuotes(q) == StripLeadingQuotes("\"");
      assert StripLeadingQuotes("\""[1..]) == "";
    } else {
      assert StripLeadingQuotes(v + "\"") == v + "\"";
      assert (v + "\"")[..|v|] == v;
    }
  }

  // ---------------------------------------------------------------------
  // Integers as decimal text

  predicate IsDigit(c: char) {
    '0' <= c <= '9'
  }

  predicate AllDigits(s: string) {
    forall i :: 0 <= i < |s| ==> IsDigit(s[i])
  }

  function DigitChar(d: nat): (c: char)
    requires d < 10
    ensures IsDigit(c) && c as int - '0' as int == d
  {
    ('0' as int + d) as char
  }

  /** The value of a string of decimal digits. */
  function DigitsValue(s: string): nat
    requires AllDigits(s)
  {
    if |s| == 0 then 0
    else DigitsValue(s[..|s| - 1]) * 10 + (s[|s| - 1] as int - '0' as int)
  }

  /** Python's `str(n)` for a natural number. */
  function NatToString(n: nat): (r: string)
    ensures |r| > 0 && AllDigits(r)
    decreases n
  {
    if n < 10 then [DigitChar(n)] else NatToString(n / 10) + [DigitChar(n % 10)]
  }

  /** Python's `f'{n}'` for an integer: decimal, with '-' for negatives. */
  function IntToString(n: int): (r: string)
    ensures |r| > 0 && ' ' !in r
  {
    if n < 0 then "-" + NatToString(-n) else NatToString(n)
  }

  /** A non-empty string of decimal digits, as a number. */
  function ParseNat(s: string): (r: Option<nat>)
    ensures r.Some? <==> |s| > 0 && AllDigits(s)
  {
    if |s| > 0 && AllDigits(s) then Some(DigitsValue(s)) else None
  }

  /** Python's `int(s)` on the forms the provider's data takes: an optional
      sign followed by decimal digits; `None` stands for the ValueError. */
  function ParseInt(s: string): (r: Option<int>)
    ensures r.Some? ==> |s| > 0
  {
    if |s| > 0 && (s[0] == '-' || s[0] == '+') then
      var m := ParseNat(s[1..]);
      if m.None? then None
      else if s[0] == '-' then Some(-(m.value as int))
      else Some(m.value as int)
    else
      var m := ParseNat(s);
      if m.None? then None else Some(m.value as int)
  }

  lemma {:induction false} NatToStringValue(n: nat)
    ensures DigitsValue(NatToString(n)) == n
    decreases n
  {
    if n >= 10 {
      var p := NatToString(n / 10);
      var s := p + [DigitChar(n % 10)];
      assert s[..|s| - 1] == p;
      NatToStringValue(n / 10);
    }
  }

  /** `int(str(n)) == n`: the integers the encoders format read back. */
  lemma ParseIntToString(n: int)
    ensures ParseInt(IntToString(n)) == Some(n)
  {
    if n < 0 {
      var s := "-" + NatToString(-n);
      assert s[1..] == NatToString(-n);
      NatToStringValue(-n);
    } else {
      var s := NatToString(n);
      assert IsDigit(s[0]);
      NatToStringValue(n);
    }
  }
}

=== FILE: wrappers.dfy ===
/** The two failure-carrying shapes the model uses in place of Python's
    `None` and of raised exceptions. */
module Wrappers {

  /** A value that may be absent. */
  datatype Option<+T> = None | Some(value: T) {

    /** The value, or `default` when absent (Python's `dict.get(key, default)`). */
    function GetOr(default: T): T {
      match this
      case Some(v) => v
      case None => default
    }
  }

  /** A value, or the error a Python call would have raised instead. */
  datatype Result<+T, +E> = Success(value: T) | Failure(error: E)
}
